=== FILE: README.md ===
# Formik Inspector core, modelled in Dafny

This project models the core of the Formik Inspector browser extension. The extension finds Formik form
state inside React's fiber tree on a page and relays snapshots of it to the extension's popup. Three
pieces are modelled, each as pure functions over immutable data:

- **Scanner** (`src/inject.js`). It decides whether a fiber carries a Formik bag, serialises accepted
  bags into snapshots and walks the fiber graph breadth first. It also numbers the snapshots, posts
  them with a change-tracked badge count, debounces scans on React commits, and answers refresh requests.
  Modules: `Classify`, `FiberGraph`, `Scan`, `Scanner`.
- **Content relay** (`src/content.js`). It keeps a one-variable cache of the last forms and has two
  listeners. Module: `ContentRelay`.
- **Background coordinator** (`src/background.js`). It keeps a per-tab registry of forms, the content
  port and the popup port, and its port handlers return the new registry together with their effects
  (port deliveries, port disconnects, badge text and colour). Module: `Coordinator`.

Supporting modules:
- `JsValue` models the JavaScript values the code inspects. It covers truthiness, `??`, `||`,
  property reads, `Number(...)` and structured-clone acceptance.
- `Decimal` models `String(n)` and the reverse conversion for digit strings.
- `PageBridge` relates the scanner's window messages to the content script, which uses the same
  message shapes.

The content script and the background script do not speak the same protocol. `src/content.js`
sends `update-badge` with `chrome.runtime.sendMessage` and answers `get-forms`/`refresh`.
`src/background.js` expects a port named `formik-inspector` that carries `forms-update`,
`badge-update` and `current-forms`. The model therefore keeps the two sides separate and does not
compose them.

Inputs that stand for things outside the code:
- Fiber roots are given. `getRootsViaHook` and `getRootsFallback` are not modelled.
- Whether a scan threw is given. `Scanner.UpdateNow` takes the forms a completed scan returns as
  an input; `Scan.ScanForms` computes them from a fiber graph and its roots, and
  `Scanner.ScanThenPost` joins the two.
- The original `onCommitFiberRoot`'s outcome is given.
- Which debounce timer fires is given.
- The set of dead ports is given. Posting to one of them throws.
- The sender's tab id and the active tab id are given.

Behaviours of the code worth noting, all of which the model keeps:
- There is no change suppression. Every successful scan posts `forms-update` (`Scanner.Post`,
  `Scanner.RepeatedScanStillPosts`).
- A name-matched object payload is accepted without `values` (`Classify.GetFormikBag`,
  `Classify.ContextDisplayNameFallback`).
- The shape test asks for object `values`/`errors`/`touched` and optional-function
  `handleSubmit`/`handleChange`. It does not look at `isSubmitting`.
- `toFormData` only defaults `null`/`undefined` fields. A non-object `values` is kept as it is.
- The content script answers `get-forms` from its cache alone, without asking the page for a scan.
- A name-matched fiber whose payload is an array is accepted. Its snapshot's `values` is then the
  array's inherited `values` method, so `postMessage` throws and that scan posts nothing at all
  (`Classify.ArrayPayloadCarriesValuesMethod`, `Scanner.FunctionValuesBlockPost`,
  `Scanner.ArrayBagBlocksScan`).

## Model

| member | source | states |
|---|---|---|
| Decimal.ParseShow | src/background.js:19 | The decimal text `String(n)` of a count reads back as exactly `n` |
| Decimal.Show | src/background.js:19 | `String(n)` of a count: a non-empty run of decimal digits with no leading zero unless the count is 0 |
| Decimal.ShowInjective | src/inject.js:60 | Distinct numbers print as distinct numerals |
| JsValue.IsObj | src/inject.js:23 | `isObj(x)` holds iff `x != null && typeof x === "object"`, so it holds of arrays and objects and not of functions |
| JsValue.NumberOfShownCount | src/background.js:47 | `Number(String(n)) \|\| 0` recovers every non-negative count `n` |
| Classify.SearchFormik | src/inject.js:35-38 | The regex search from a position succeeds iff some later start matches "formik" ignoring ASCII case |
| Classify.GetFormikBag | src/inject.js:26-55 | The result is null unless the payload `memoizedProps.value` is an object, and a non-null result is that payload itself. A type or context name match accepts any object payload. Without a name match the payload is accepted iff it passes the shape test |
| Classify.NamedFormikWithoutErrorsIsAccepted | src/inject.js:31-53 | A fiber named `Formik` whose payload has only `values` is accepted |
| Classify.ContextDisplayNameFallback | src/inject.js:30-35 | A context with only `_displayName` "FormikContext" makes a payload with no Formik fields acceptable |
| Classify.UnnamedBagShapeIsAccepted | src/inject.js:41-52 | An unnamed fiber whose payload has `values`/`errors`/`touched` objects is accepted |
| Classify.UnnamedOtherPayloadIsRejected | src/inject.js:41-54 | An unnamed fiber whose payload lacks the bag shape is rejected |
| Classify.ArrayPayloadCarriesValuesMethod | src/inject.js:41-61 | An array payload never passes the shape test, since its `values` is the inherited `Array.prototype.values` method. A name match still accepts it, and its snapshot then carries that method as `values` |
| Classify.FormId | src/inject.js:60 | The id is `form-` followed by the shortest decimal numeral of the index, which parses back to the index |
| Classify.FormIdInjective | src/inject.js:60 | Distinct indices give distinct ids |
| Classify.ToFormData | src/inject.js:57-72 | The id is `form-` and the index as `String(idx)` prints it. The flags are the truthiness of the bag's fields. `values`/`errors`/`touched`/`initialValues` default to `{}`, `isValid` to `true` and `submitCount` to `0`, each only when the field is nullish. A non-nullish field is kept as it is, whatever its type, so an explicit `false` or `1` validity is kept. `status` passes through. No defaulted field is ever nullish |
| Classify.ShapeMatchedBagKeepsState | src/inject.js:61-63 | A shape-matched bag's `values`, `errors` and `touched` appear unchanged in its snapshot |
| FiberGraph.Traverse | src/inject.js:75-92 | A missing root visits nothing. Otherwise the root is visited first, no fiber is visited twice, and the visited fibers are exactly those reachable by `child`/`sibling` edges, on any graph including cyclic ones |
| FiberGraph.TraverseFiber | src/inject.js:75-92 | The queue-and-seen-set loop visits the same fibers, in the same order, as the breadth-first definition |
| FiberGraph.WalkVisitsFreshFibers | src/inject.js:79-85 | From any queue and seen set, every visited fiber exists, was unseen, and is visited once |
| FiberGraph.WalkSound | src/inject.js:84-89 | Every visited fiber is reachable from some queued fiber |
| FiberGraph.WalkComplete | src/inject.js:79-91 | Everything queued ends up seen or visited, and the seen-plus-visited set is closed under edges |
| FiberGraph.ClosedContainsReachable | src/inject.js:86-89 | An edge-closed set holding a fiber holds everything reachable from it |
| Scan.ScanForms | src/inject.js:136-150 | The fallback roots are used only when the hook yields none. There is one snapshot per accepted bag in encounter order, the i-th being `toFormData(bag_i, i)` with id `form-i` |
| Scan.CollectNumbers | src/inject.js:142-145 | Running the visit callback over any fibers appends exactly `toFormData` of each accepted bag, in order, numbered from the current length, so each snapshot's number is its position in the result |
| Scan.CollectAppend | src/inject.js:141-146 | Collecting over two runs of fibers equals collecting over the first, then the second |
| Scan.ScanRootsCollectsVisits | src/inject.js:141-146 | The loop over roots collects over the concatenation of their traversals |
| Scan.VisitCount | src/inject.js:75-82 | The seen set is fresh per root, so a fiber is visited once for each root that reaches it and a fiber shared by two roots is emitted twice |
| Scanner.Post | src/inject.js:152-173 | Exactly one `forms-update`, first, and nothing else except the badge update. A `badge-update` carrying the count is posted iff the count differs from `lastCount`. Afterwards `lastCount` is the count |
| Scanner.UpdateNow | src/inject.js:175-181 | A throwing scan, or forms that structured clone rejects, posts nothing and leaves the state unchanged. Otherwise it posts as `post` does |
| Scanner.UpdateNowKeepsBadgeInSync | src/inject.js:162-163 | After one update, `lastCount` equals the count of the last badge update posted |
| Scanner.FunctionValuesBlockPost | src/inject.js:153-180 | A snapshot whose `values` is a function makes the whole scan post nothing and leaves `lastCount` as it was, since `postMessage` throws and `updateNow` swallows the error |
| Scanner.ScanThenPost | src/inject.js:175-181 | `updateNow()` posts exactly `scanForms()` of the fiber graph and roots, each snapshot numbered `form-i`, or nothing when structured clone rejects them |
| Scanner.ArrayBagBlocksScan | src/inject.js:136-180 | When any accepted bag of the scan is an array, `updateNow()` posts nothing and keeps `lastCount` |
| Scanner.RunKeepsBadgeInSync | src/inject.js:162-172 | Over any run of updates, `lastCount` equals the last posted badge count, or the starting count if none was posted |
| Scanner.RepeatedScanStillPosts | src/inject.js:152-162 | Scanning identical forms again posts them again, without a badge update |
| Scanner.DebouncedUpdate | src/inject.js:183-186 | The previously armed timer is cancelled. From a well-formed state exactly one new timer is armed |
| Scanner.FireTimer | src/inject.js:185 | An armed timer disarms itself and then does exactly what `updateNow` does. A cancelled timer does nothing |
| Scanner.OnCommitFiberRoot | src/inject.js:194-203 | The wrapper returns the original result or rethrows its exception, and in both cases leaves exactly one debounced scan armed |
| Scanner.CommitBurstArmsOneTimer | src/inject.js:183-202 | However many commits come in a row, exactly one scan is pending afterwards |
| Scanner.OnWindowMessage | src/inject.js:210-217 | Only a tagged `refresh-request` runs `updateNow`. Every other message changes nothing |
| Scanner.InitialTimersOk | src/inject.js:18-19 | The starting state, `lastCount = 0` with no timer set, satisfies the timer invariant the debounce contracts rely on |
| Scanner.IgnoresOwnPosts | src/inject.js:210-216 | The scanner's own `forms-update`/`badge-update` posts do not trigger scans |
| ContentRelay.OnWindowMessage | src/content.js:11-23 | Untagged or non-`forms-update` messages change nothing. A `forms-update` sets the cache to `data.forms \|\| []` and sends exactly one `update-badge` with the new cache's length |
| ContentRelay.OnRuntimeMessage | src/content.js:26-38 | No message changes the cache. `get-forms` replies with the cache, `refresh` posts one tagged `refresh-request`, and anything else does nothing |
| ContentRelay.OwnRefreshRequestIgnored | src/content.js:12-14 | The content script's own refresh request leaves its cache alone |
| ContentRelay.ReplayKeepsLastUpdate | src/content.js:14-15 | After any run of window messages, the cache holds the last `forms-update`'s forms |
| ContentRelay.ReplayWithoutUpdates | src/content.js:12-14 | A run of non-`forms-update` messages leaves the cache unchanged |
| ContentRelay.NoFormsBeforeFirstUpdate | src/content.js:8-28 | Starting from `currentForms = []`, until the first `forms-update` the cache is empty and `get-forms` replies with no forms |
| PageBridge.ContentCachesScannerForms | src/content.js:14-21 | A scanner `forms-update` becomes the content cache, and the reported count is the number of forms |
| PageBridge.ContentIgnoresBadgeUpdate | src/content.js:14 | The scanner's `badge-update` leaves the content cache alone and sends nothing |
| PageBridge.RefreshReachesScanner | src/content.js:29-36 | The content script's refresh request makes the scanner run `updateNow` |
| PageBridge.ReplayScannerPosts | src/content.js:14-15 | Relaying scanner posts leaves the last posted forms in the content cache |
| PageBridge.LastPostedFormsMatchCount | src/inject.js:162-163 | The last forms a run of updates posted are as many as the final `lastCount` |
| PageBridge.ContentAgreesWithScanner | src/content.js:15-21 | Once something has been posted, the content cache's length, the count it reports, equals the scanner's `lastCount` |
| Coordinator.Badge | src/background.js:18-21 | For a positive count the text is the shortest decimal numeral of the count, which reads back as the count, and the colour is `#007bff`. Otherwise the text is empty and the colour is `#6c757d` |
| Coordinator.Send | src/background.js:13-16 | An absent port gets nothing. A live port gets one delivery. A dead port gets nothing and `onFail` runs |
| Coordinator.S | src/background.js:11 | An existing entry is returned unchanged. Otherwise a fresh empty entry is linked to the tab. Every other tab keeps its link to the same entry object, and every existing entry is kept |
| Coordinator.OnContentMessage | src/background.js:41-55 | `forms-update`/`current-forms` replace the forms as a whole with `m.forms` if it is an array, else with `[]`, and forward them to the popup. A failed send clears only `popup`. `badge-update` sets the badge to `Number(m.count) \|\| 0`. Other types change nothing. No other entry changes |
| Coordinator.ConnectContent | src/background.js:57-62 | For a set sender tab, the new port becomes the tab's content port, superseding the old one, and forms and popup are kept. No other tab changes, and every other entry object, including ones only older listeners hold, is kept. Each tab stays linked to the same entry object, and a newly linked entry is a fresh one |
| Coordinator.OnContentDisconnect | src/background.js:63-67 | The tab always has an entry afterwards, with empty forms and a zero badge. `content` is cleared only if it is this port. No other tab changes, and every other entry object is kept. Each tab stays linked to the same entry object, and a newly linked entry is a fresh one |
| Coordinator.ConnectPopup | src/background.js:85-95 | For a set active tab, the port becomes the popup. The cached forms go to it before `get-current-forms` goes to content. A failed content send clears only `content`. Every other entry object is kept. Each tab stays linked to the same entry object, and a newly linked entry is a fresh one |
| Coordinator.OnPopupMessage | src/background.js:72-83 | `get-forms` replies with the cached forms, then asks content. `refresh` forwards to content, or is silent without one. A failed content send clears only `content`. Other types change nothing |
| Coordinator.OnPopupDisconnect | src/background.js:96-98 | `popup` is cleared only if it is this port. The tab keeps or gains an entry. No other tab changes, and every other entry object is kept. Each tab stays linked to the same entry object, and a newly linked entry is a fresh one |
| Coordinator.Cleanup | src/background.js:30-37 | An unknown tab gives no change and no effect. Otherwise the tab's ports are disconnected, the tab unlinked from its entry and its badge reset to zero. The entry objects themselves, which the tab's listeners still hold, are all kept. Exactly this tab is removed from `tabs`, and every other tab keeps its link |
| Coordinator.OnConnect | src/background.js:103-107 | A port named `formik-inspector` connects as content and a port named `popup` as popup. Other names are ignored |
| Coordinator.SupersededContentDisconnect | src/background.js:61-66 | When a superseded content port disconnects, the newer port stays registered, but the forms are still emptied and the badge reset |
| Coordinator.SupersededPopupDisconnect | src/background.js:89-97 | When a superseded popup disconnects, the newer popup stays registered |
| Coordinator.SupersededContentPortStillWrites | src/background.js:60-62 | A superseded content port's forms still land in the tab's entry, since both listeners share it |
| Coordinator.DetachedEntryWritesAreInvisible | src/background.js:30-35 | After `cleanup`, writes through the detached entry change no tab's registry entry |
| Coordinator.DisconnectAfterCleanupRecreatesEntry | src/background.js:63-66 | A content disconnect after `cleanup` re-creates an empty entry for the closed tab |
| Coordinator.InitialRegistryValid | src/background.js:3 | The empty `tabs` map is a well-formed registry that knows no tab |
| Coordinator.RefreshWithoutContentIsSilent | src/background.js:78-79 | A `refresh` with no content port changes nothing and sends nothing |

## Left out

- Root discovery (`getRootsViaHook`, `getRootsFallback`, src/inject.js:95-134) is not modelled, because it is DevTools and DOM access. Its roots are inputs. The parent climb in the fallback has no termination guarantee on cyclic `return`/`_owner` chains.
- Timer delays (400/100/200 ms), the initial settle-delay scan and the `MutationObserver` are not modelled. A timer firing is an input to `Scanner.FireTimer`, and the observer's call is the same `Scanner.DebouncedUpdate`.
- `Date.now` timestamps in messages are dropped, and so is the `m.timestamp ??` fallback in `current-forms`.
- Chrome APIs are reduced to effects and inputs. Badge calls become effects. `port.postMessage` becomes a delivery, or a failure for a port in the `dead` set. `port.disconnect` becomes an effect.
- `chrome.runtime.sendMessage` and `sendResponse` in the content script are recorded as effects. Their own failures (an invalidated context) are not modelled.
- The asynchronous `activeTabId` lookup is not modelled. The active tab id is an input, and events that interleave at the `await` are not modelled.
- Script injection (src/content.js:3-6), the double-injection guard, the missing-hook early exit, the debug surface and logging are not modelled.
- The popup (src/popup.js) is left out because it is UI.
- JavaScript numbers are modelled as integers. Fractions, NaN as a value, -0, and exponent notation for very large counts are left out. `Number` of a string models only the empty string and an optionally signed run of digits. Whitespace trimming, decimals, exponents and hexadecimal give NaN in the model.
- Property reads cover own properties of objects and functions, `length` of arrays and strings, and the inherited `values` method of arrays. Array indices and other inherited properties read as `undefined`. None of the other inherited names is one the code reads.
- Classify.NameLooksFormik: a non-string name (an array or a function whose text contains "formik") is treated as not matching. `RegExp.test` would stringify it first.
- Coordinator.MessageType: a non-string `type` never selects a handler. JavaScript would convert it to a property key, for example `["refresh"]` becomes "refresh". Inherited `Object.prototype` names do not change any state in the source either.
- Structured clone is modelled only as rejecting functions inside the posted forms. Other uncloneable objects are not represented in the value model.
- A throw inside `scanForms` is an input (`Scanner.ScanThrew`), because the modelled scan itself is total.
- Strings are sequences of Unicode scalar values, so `length` counts scalars rather than UTF-16 code units.
- An edge in the fiber graph that names an id with no fiber is treated as an absent edge. Real fiber object references cannot dangle.
- The `onInstalled` log listener and the `tabs.onRemoved` registration are not modelled beyond `Coordinator.Cleanup` itself, because they are logging and wiring.

=== FILE: classify.dfy ===
/**
 * `getFormikBagFromFiber` and `toFormData` (src/inject.js): deciding whether
 * a fiber carries a Formik bag, and turning an accepted bag into the snapshot
 * the extension ships.
 */
module Classify {
  import opened Wrappers
  import opened JsValue
  import Decimal
  import opened FiberGraph

  /** The text `/Formik/i` looks for, in upper case. The source's second
      alternative, `FormikContext`, contains it and so adds no matches. */
  const Pattern: string := "FORMIK"

  /** ASCII upper-casing. Without the `u` flag a case-insensitive regular
      expression never folds a non-ASCII character onto an ASCII one, so this
      is exactly the folding `/Formik/i` applies to the letters it compares. */
  function UpperAscii(c: char): char {
    if 'a' <= c <= 'z' then (c as int - 32) as char else c
  }

  function UpperString(s: string): (u: string)
    ensures |u| == |s|
  {
    seq(|s|, k requires 0 <= k < |s| => UpperAscii(s[k]))
  }

  /** The pattern occurs at position `i` of `s`, ignoring case. */
  predicate MatchesAt(s: string, i: nat)
    requires i + |Pattern| <= |s|
  {
    UpperString(s[i..i + |Pattern|]) == Pattern
  }

  /** `/Formik/i.test(s)`, searched from position `from` onwards, the way the
      regular expression tries each start position in turn. */
  function SearchFormik(s: string, from: nat): (found: bool)
    ensures found <==> exists i: nat :: from <= i && i + |Pattern| <= |s| && MatchesAt(s, i)
    decreases |s| - from
  {
    if from + |Pattern| > |s| then false
    else MatchesAt(s, from) || SearchFormik(s, from + 1)
  }

  /** `/Formik/i.test(v)` for a name read off a fiber. Only string names are
      compared: a non-string name is treated as not matching. */
  predicate NameLooksFormik(v: Value) {
    v.Str? && SearchFormik(v.s, 0)
  }

  /** `ctxLooksFormik`: the type's `_context` is truthy and its `displayName`,
      else its `_displayName`, else `""`, matches. */
  predicate CtxLooksFormik(typ: Value) {
    var ctx := Get(typ, "_context");
    Truthy(ctx) && NameLooksFormik(Or(Or(Get(ctx, "displayName"), Get(ctx, "_displayName")), Str("")))
  }

  /** `typeLooksFormik`: the type's `name`, else `""`, matches. */
  predicate TypeLooksFormik(typ: Value) {
    NameLooksFormik(Or(Get(typ, "name"), Str("")))
  }

  predicate NameMatch(f: Fiber) {
    CtxLooksFormik(f.typ) || TypeLooksFormik(f.typ)
  }

  /** A method slot of the bag that is absent or a function. */
  predicate OptionalMethod(v: Value) {
    v.Undefined? || v.Func?
  }

  /** `looksLikeBag`: the shape test, independent of any name. */
  predicate LooksLikeBag(bag: Value) {
    && IsObj(bag)
    && IsObj(Get(bag, "values"))
    && IsObj(Get(bag, "errors"))
    && IsObj(Get(bag, "touched"))
    && OptionalMethod(Get(bag, "handleSubmit"))
    && OptionalMethod(Get(bag, "handleChange"))
  }

  /** The candidate bag: `fiber.memoizedProps.value`. */
  function Payload(f: Fiber): Value {
    Get(f.memoizedProps, "value")
  }

  /**
   * `getFormikBagFromFiber`: the fiber's payload when a name test or the
   * shape test accepts it and it is an object; `None` (the source's `null`)
   * otherwise. A name match accepts any object payload, even one without
   * `values`, `errors` or `touched`.
   */
  function GetFormikBag(f: Fiber): (r: Option<Value>)
    ensures r.Some? ==> r.value == Payload(f) && IsObj(r.value)
    ensures !IsObj(Payload(f)) ==> r == None
    ensures NameMatch(f) && IsObj(Payload(f)) ==> r == Some(Payload(f))
    ensures !NameMatch(f) ==> (r.Some? <==> LooksLikeBag(Payload(f)))
  {
    var bag := Payload(f);
    if (CtxLooksFormik(f.typ) || TypeLooksFormik(f.typ) || LooksLikeBag(bag)) && IsObj(bag) then Some(bag) else None
  }

  /** The snapshot of one form, as `toFormData` builds it. */
  datatype FormData = FormData(
    id: string,
    values: Value,
    errors: Value,
    touched: Value,
    isSubmitting: bool,
    isValidating: bool,
    isValid: Value,
    submitCount: Value,
    dirty: bool,
    status: Value,
    initialValues: Value)

  /** The prefix of every snapshot id. */
  const IdPrefix: string := "form-"

  /** `` `form-${idx}` `` */
  function FormId(idx: nat): (id: string)
    ensures id == IdPrefix + Decimal.Show(idx)
    ensures |id| > |IdPrefix| && id[..|IdPrefix|] == IdPrefix
    ensures Decimal.Parse(id[|IdPrefix|..]) == Some(idx)
  {
    Decimal.ParseShow(idx);
    IdPrefix + Decimal.Show(idx)
  }

  /** Distinct positions get distinct ids. */
  lemma FormIdInjective(i: nat, j: nat)
    ensures FormId(i) == FormId(j) ==> i == j
  {
    if FormId(i) == FormId(j) {
      assert FormId(i)[|IdPrefix|..] == FormId(j)[|IdPrefix|..];
    }
  }

  /**
   * `toFormData(bag, idx)`: the id encodes `idx`; the flags are the
   * truthiness of the bag's fields; `values`, `errors`, `touched`,
   * `initialValues`, `isValid` and `submitCount` keep the bag's field unless
   * it is `null`/`undefined`, in which case they take `{}`, `{}`, `{}`, `{}`,
   * `true` and `0`; `status` is copied as it is. No other normalisation
   * happens: a non-object `values` is kept.
   */
  function ToFormData(bag: Value, idx: nat): (d: FormData)
    ensures d.id == IdPrefix + Decimal.Show(idx)
    ensures |d.id| > |IdPrefix| && d.id[..|IdPrefix|] == IdPrefix && Decimal.Parse(d.id[|IdPrefix|..]) == Some(idx)
    ensures !Nullish(d.values) && !Nullish(d.errors) && !Nullish(d.touched) && !Nullish(d.initialValues)
    ensures !Nullish(d.isValid) && !Nullish(d.submitCount)
    ensures !Nullish(Get(bag, "values")) ==> d.values == Get(bag, "values")
    ensures !Nullish(Get(bag, "errors")) ==> d.errors == Get(bag, "errors")
    ensures !Nullish(Get(bag, "touched")) ==> d.touched == Get(bag, "touched")
    ensures !Nullish(Get(bag, "initialValues")) ==> d.initialValues == Get(bag, "initialValues")
    ensures Nullish(Get(bag, "values")) ==> d.values == Obj(map[])
    ensures Nullish(Get(bag, "errors")) ==> d.errors == Obj(map[])
    ensures Nullish(Get(bag, "touched")) ==> d.touched == Obj(map[])
    ensures Nullish(Get(bag, "initialValues")) ==> d.initialValues == Obj(map[])
    ensures !Nullish(Get(bag, "isValid")) ==> d.isValid == Get(bag, "isValid")
    ensures d.isValid == Bool(false) <==> Get(bag, "isValid") == Bool(false)
    ensures d.isValid == Bool(true) <==> Nullish(Get(bag, "isValid")) || Get(bag, "isValid") == Bool(true)
    ensures !Nullish(Get(bag, "submitCount")) ==> d.submitCount == Get(bag, "submitCount")
    ensures Nullish(Get(bag, "submitCount")) ==> d.submitCount == Num(0)
    ensures d.isSubmitting == Truthy(Get(bag, "isSubmitting"))
    ensures d.isValidating == Truthy(Get(bag, "isValidating"))
    ensures d.dirty == Truthy(Get(bag, "dirty"))
    ensures d.status == Get(bag, "status")
  {
    FormData(
      id := FormId(idx),
      values := Coalesce(Get(bag, "values"), Obj(map[])),
      errors := Coalesce(Get(bag, "errors"), Obj(map[])),
      touched := Coalesce(Get(bag, "touched"), Obj(map[])),
      isSubmitting := Truthy(Get(bag, "isSubmitting")),
      isValidating := Truthy(Get(bag, "isValidating")),
      isValid := Coalesce(Get(bag, "isValid"), Bool(true)),
      submitCount := Coalesce(Get(bag, "submitCount"), Num(0)),
      dirty := Truthy(Get(bag, "dirty")),
      status := Get(bag, "status"),
      initialValues := Coalesce(Get(bag, "initialValues"), Obj(map[])))
  }

  /** A bag accepted by the shape test keeps its `values`, `errors` and
      `touched` objects unchanged in its snapshot. */
  lemma ShapeMatchedBagKeepsState(bag: Value, idx: nat)
    requires LooksLikeBag(bag)
    ensures ToFormData(bag, idx).values == Get(bag, "values")
    ensures ToFormData(bag, idx).errors == Get(bag, "errors")
    ensures ToFormData(bag, idx).touched == Get(bag, "touched")
  {
  }

  /** A fiber whose component is named `Formik` and whose payload only has
      `values` is accepted on its name. */
  lemma NamedFormikWithoutErrorsIsAccepted()
    ensures
      var bag := Obj(map["values" := Obj(map["a" := Num(1)])]);
      GetFormikBag(Fiber(Func(map["name" := Str("Formik")]), Obj(map["value" := bag]), None, None)) == Some(bag)
  {
    var bag := Obj(map["values" := Obj(map["a" := Num(1)])]);
    var f := Fiber(Func(map["name" := Str("Formik")]), Obj(map["value" := bag]), None, None);
    assert Or(Get(f.typ, "name"), Str("")) == Str("Formik");
    assert "Formik"[0..6] == "Formik";
    assert UpperString("Formik") == Pattern;
    assert MatchesAt("Formik", 0);
    assert TypeLooksFormik(f.typ);
  }

  /** A context provider whose context is only `_displayName`d `FormikContext`
      is accepted on its name, even for a payload with no Formik fields. */
  lemma ContextDisplayNameFallback()
    ensures
      var ctx := Obj(map["_displayName" := Str("FormikContext")]);
      var bag := Obj(map["foo" := Num(1)]);
      GetFormikBag(Fiber(Obj(map["_context" := ctx]), Obj(map["value" := bag]), None, None)) == Some(bag)
  {
    var ctx := Obj(map["_displayName" := Str("FormikContext")]);
    var name := Or(Or(Get(ctx, "displayName"), Get(ctx, "_displayName")), Str(""));
    assert name == Str("FormikContext");
    assert "FormikContext"[0..6] == "Formik";
    assert UpperString("Formik") == Pattern;
    assert MatchesAt("FormikContext", 0);
  }

  /** An unnamed fiber whose payload has the bag's shape is accepted. */
  lemma UnnamedBagShapeIsAccepted()
    ensures
      var bag := Obj(map["values" := Obj(map[]), "errors" := Obj(map[]), "touched" := Obj(map[]), "isSubmitting" := Bool(false)]);
      GetFormikBag(Fiber(Func(map["name" := Str("X")]), Obj(map["value" := bag]), None, None)) == Some(bag)
  {
  }

  /** An unnamed fiber whose payload lacks the bag's shape is rejected. */
  lemma UnnamedOtherPayloadIsRejected()
    ensures GetFormikBag(Fiber(Func(map["name" := Str("X")]), Obj(map["value" := Obj(map["foo" := Num(1)])]), None, None)) == None
  {
  }

  /** An array payload never passes the shape test, because its `values` is
      the inherited `Array.prototype.values` method; a name match still
      accepts it, and its snapshot then carries that method as `values`. */
  lemma ArrayPayloadCarriesValuesMethod(f: Fiber, items: seq<Value>, idx: nat)
    requires Payload(f) == Arr(items)
    ensures !LooksLikeBag(Payload(f))
    ensures GetFormikBag(f).Some? <==> NameMatch(f)
    ensures ToFormData(Payload(f), idx).values == ArrayValuesMethod
  {
  }
}

=== FILE: content_relay.dfy ===
/**
 * The content script (src/content.js): a cache of the last forms the page
 * posted, a window listener that fills it, and a runtime listener that
 * answers the popup. It talks to the rest of the extension through
 * `chrome.runtime.sendMessage` and `sendResponse`, which the model records
 * as effects.
 */
module ContentRelay {
  import opened JsValue
  import opened Protocol

  /** What the content script sends out. */
  datatype RelayEffect =
    | UpdateBadge(count: Value)   // chrome.runtime.sendMessage({type: "update-badge", count})
    | Reply(forms: Value)         // sendResponse({forms})
    | PostWindow(data: Value)     // window.postMessage(data, "*")

  /** `currentForms` before any message. */
  const InitialCache: Value := Arr([])

  /** The window message asking the page's scanner for an immediate scan. */
  const RefreshRequestData: Value := Obj(map["source" := Str(Source), "type" := Str("refresh-request")])

  /**
   * The window `message` listener. Messages not tagged with the extension's
   * source, and tagged messages other than `forms-update`, change nothing. A
   * `forms-update` replaces the cache with `data.forms || []` and reports
   * the new cache's `length` as the badge count, exactly once.
   */
  function OnWindowMessage(cache: Value, data: Value): (r: (Value, seq<RelayEffect>))
    ensures Get(data, "source") != Str(Source) ==> r == (cache, [])
    ensures Get(data, "type") != Str("forms-update") ==> r == (cache, [])
    ensures Get(data, "source") == Str(Source) && Get(data, "type") == Str("forms-update") ==>
      && (Truthy(Get(data, "forms")) ==> r.0 == Get(data, "forms"))
      && (!Truthy(Get(data, "forms")) ==> r.0 == Arr([]))
      && r.1 == [UpdateBadge(Get(r.0, "length"))]
  {
    if Get(data, "source") != Str(Source) then (cache, [])
    else if Get(data, "type") == Str("forms-update") then
      var forms := Or(Get(data, "forms"), Arr([]));
      (forms, [UpdateBadge(Get(forms, "length"))])
    else (cache, [])
  }

  /**
   * The `runtime.onMessage` listener. `get-forms` answers with the cache as
   * it is; `refresh` posts one refresh request into the page; nothing else
   * does anything, and no message changes the cache.
   */
  function OnRuntimeMessage(cache: Value, message: Value): (r: (Value, seq<RelayEffect>))
    ensures r.0 == cache
    ensures Get(message, "type") == Str("get-forms") ==> r.1 == [Reply(cache)]
    ensures Get(message, "type") == Str("refresh") ==> r.1 == [PostWindow(RefreshRequestData)]
    ensures Get(message, "type") != Str("get-forms") && Get(message, "type") != Str("refresh") ==> r.1 == []
  {
    if Get(message, "type") == Str("get-forms") then (cache, [Reply(cache)])
    else if Get(message, "type") == Str("refresh") then (cache, [PostWindow(RefreshRequestData)])
    else (cache, [])
  }

  /** The content script's own refresh request, echoed back to its window
      listener, leaves the cache alone. */
  lemma OwnRefreshRequestIgnored(cache: Value)
    ensures OnWindowMessage(cache, RefreshRequestData) == (cache, [])
  {
  }

  /** Whatever sequence of window messages arrives, the cache is the last
      `forms-update`'s forms, or the initial one if there was none. */
  function Replay(cache: Value, datas: seq<Value>): Value
    decreases |datas|
  {
    if datas == [] then cache else Replay(OnWindowMessage(cache, datas[0]).0, datas[1..])
  }

  predicate IsFormsUpdate(data: Value) {
    Get(data, "source") == Str(Source) && Get(data, "type") == Str("forms-update")
  }

  /** The cache after a run of window messages depends only on the last
      `forms-update` among them. */
  lemma {:induction false} ReplayKeepsLastUpdate(cache: Value, datas: seq<Value>, k: nat)
    requires k < |datas| && IsFormsUpdate(datas[k])
    requires forall j :: k < j < |datas| ==> !IsFormsUpdate(datas[j])
    ensures Replay(cache, datas) == Or(Get(datas[k], "forms"), Arr([]))
    decreases |datas|
  {
    if k > 0 {
      ReplayKeepsLastUpdate(OnWindowMessage(cache, datas[0]).0, datas[1..], k - 1);
    } else {
      ReplayWithoutUpdates(OnWindowMessage(cache, datas[0]).0, datas[1..]);
    }
  }

  /** Window messages that are not `forms-update`s leave the cache as it is. */
  lemma {:induction false} ReplayWithoutUpdates(cache: Value, datas: seq<Value>)
    requires forall j :: 0 <= j < |datas| ==> !IsFormsUpdate(datas[j])
    ensures Replay(cache, datas) == cache
    decreases |datas|
  {
    if datas != [] {
      ReplayWithoutUpdates(cache, datas[1..]);
    }
  }

  /** Until the first `forms-update`, the content script holds and reports
      no forms. */
  lemma NoFormsBeforeFirstUpdate(datas: seq<Value>)
    requires forall j :: 0 <= j < |datas| ==> !IsFormsUpdate(datas[j])
    ensures Replay(InitialCache, datas) == Arr([])
    ensures OnRuntimeMessage(Replay(InitialCache, datas), Obj(map["type" := Str("get-forms")])).1 == [Reply(Arr([]))]
  {
    ReplayWithoutUpdates(InitialCache, datas);
  }
}

=== FILE: coordinator.dfy ===
/**
 * The background coordinator (src/background.js): a per-tab registry of the
 * latest forms and of the content and popup ports, driven by port events.
 *
 * The source's listeners close over the entry object `s` that `S(tabId)`
 * returned when their port connected, while `cleanup` only unlinks an entry
 * from the `tabs` map. So the model keeps entries in a heap of their own
 * (`entries`, addressed by `EntryRef`) next to the `tabs` map, and the
 * message handlers take the captured reference as a parameter.
 *
 * Ports are abstract ids. A send to a port in the `dead` set throws, which is
 * how the source learns that a port has gone away; Chrome API calls are
 * returned as effects.
 */
module Coordinator {
  import opened Wrappers
  import opened JsValue
  import Decimal
  import Protocol

  type TabId = int
  type PortId = nat
  type EntryRef = nat

  /** `{ forms, content?, popup? }` */
  datatype PageState = PageState(forms: seq<Value>, content: Option<PortId>, popup: Option<PortId>)

  const EmptyPage: PageState := PageState([], None, None)

  /** `tabs`, plus the entry objects it points to (including ones `cleanup`
      unlinked) and the next unused reference. */
  datatype Registry = Registry(tabs: map<TabId, EntryRef>, entries: map<EntryRef, PageState>, nextRef: EntryRef)

  const InitialRegistry: Registry := Registry(map[], map[], 0)

  /** Every tab points to an allocated entry of its own. */
  predicate Valid(r: Registry) {
    && (forall t :: t in r.tabs ==> r.tabs[t] in r.entries)
    && (forall t, u :: t in r.tabs && u in r.tabs && t != u ==> r.tabs[t] != r.tabs[u])
    && (forall e :: e in r.entries ==> e < r.nextRef)
  }

  /** Every entry object other than the one tab `t` points to, including
      entries only older listeners still hold, is kept as it was. */
  predicate KeepsOtherEntries(r: Registry, r': Registry, t: TabId) {
    forall e :: e in r.entries && (t !in r.tabs || e != r.tabs[t]) ==> e in r'.entries && r'.entries[e] == r.entries[e]
  }

  /** Tab `t` keeps the entry object it had, or is linked to a new one it did
      not have, and every other tab keeps its entry object. */
  predicate KeepsTabLinks(r: Registry, r': Registry, t: TabId) {
    && t in r'.tabs
    && r'.tabs == r.tabs[t := r'.tabs[t]]
    && (t in r.tabs ==> r'.tabs[t] == r.tabs[t])
    && (t !in r.tabs ==> r'.tabs[t] !in r.entries)
  }

  /** What `tabs.get(t)` holds. */
  function Lookup(r: Registry, t: TabId): Option<PageState>
    requires Valid(r)
  {
    if t in r.tabs then Some(r.entries[r.tabs[t]]) else None
  }

  /** Messages the coordinator sends over ports (timestamps are left out). */
  datatype OutMsg = FormsData(forms: seq<Value>) | GetCurrentForms | RefreshRequest

  /** The coordinator's observable effects. */
  datatype Effect =
    | Deliver(port: PortId, msg: OutMsg)
    | Disconnect(port: PortId)
    | BadgeText(tab: TabId, text: string)
    | BadgeColor(tab: TabId, color: string)

  const ActiveColor: string := "#007bff"
  const NeutralColor: string := "#6c757d"

  /**
   * `badge(tabId, n)`: the count as text and the active colour when it is
   * positive, otherwise no text and the neutral colour.
   */
  function Badge(tab: TabId, n: int): (e: seq<Effect>)
    ensures |e| == 2 && e[0].BadgeText? && e[1].BadgeColor? && e[0].tab == tab && e[1].tab == tab
    ensures n > 0 ==> e[0].text == Decimal.Show(n) && e[1].color == ActiveColor
    ensures n > 0 ==> Decimal.Parse(e[0].text) == Some(n)
    ensures n <= 0 ==> e[0].text == "" && e[1].color == NeutralColor
  {
    if n > 0 then
      Decimal.ParseShow(n);
      [BadgeText(tab, Decimal.Show(n)), BadgeColor(tab, ActiveColor)]
    else
      [BadgeText(tab, ""), BadgeColor(tab, NeutralColor)]
  }

  /** What one `post(port, msg, onFail)` did: the delivery, if any, and
      whether `onFail` ran. */
  datatype Sent = Sent(effects: seq<Effect>, failed: bool)

  /** `post(port, msg, onFail)`: nothing for an absent port; a delivery to a
      live one; a swallowed exception, reported by `failed`, for a dead one. */
  function Send(port: Option<PortId>, msg: OutMsg, dead: set<PortId>): (r: Sent)
    ensures r.failed <==> port.Some? && port.value in dead
    ensures r.effects == if port.Some? && port.value !in dead then [Deliver(port.value, msg)] else []
  {
    match port
    case None => Sent([], false)
    case Some(p) => if p in dead then Sent([], true) else Sent([Deliver(p, msg)], false)
  }

  /** Overwrites the entry object `s`. */
  function Put(r: Registry, s: EntryRef, st: PageState): (r': Registry)
    requires Valid(r) && s in r.entries
    ensures Valid(r') && r'.tabs == r.tabs && r'.nextRef == r.nextRef
    ensures r'.entries.Keys == r.entries.Keys && r'.entries[s] == st
    ensures forall e :: e in r.entries && e != s ==> r'.entries[e] == r.entries[e]
  {
    r.(entries := r.entries[s := st])
  }

  /**
   * `S(tabId)`: the tab's entry if it has one, untouched; otherwise a new
   * empty entry, linked to the tab. No other tab is affected.
   */
  function S(r: Registry, t: TabId): (res: (Registry, EntryRef))
    requires Valid(r)
    ensures Valid(res.0)
    ensures t in res.0.tabs && res.0.tabs[t] == res.1
    ensures res.0.tabs == r.tabs[t := res.1]
    ensures t in r.tabs ==> res == (r, r.tabs[t])
    ensures t !in r.tabs ==> res.1 !in r.entries && res.0.entries == r.entries[res.1 := EmptyPage]
    ensures forall u :: u != t ==> Lookup(res.0, u) == Lookup(r, u)
    ensures forall e :: e in r.entries ==> e in res.0.entries && res.0.entries[e] == r.entries[e]
  {
    if t in r.tabs then (r, r.tabs[t])
    else (Registry(r.tabs[t := r.nextRef], r.entries[r.nextRef := EmptyPage], r.nextRef + 1), r.nextRef)
  }

  /** The key `handlers[m?.type]` looks up, when the type is a string. */
  function MessageType(m: Value): Option<string> {
    if Get(m, "type").Str? then Some(Get(m, "type").s) else None
  }

  /** The two content messages that carry forms. */
  predicate CarriesForms(m: Value) {
    MessageType(m) == Some("forms-update") || MessageType(m) == Some("current-forms")
  }

  /**
   * `onContentMessage(tabId, s)(m)`. `forms-update` and `current-forms`
   * replace the entry's forms as a whole with `m.forms` when it is an array,
   * else with `[]`, and forward those forms to the popup, forgetting only the
   * popup if that send fails. `badge-update` sets the badge to
   * `Number(m.count) || 0`. Any other message does nothing.
   */
  function OnContentMessage(r: Registry, tab: TabId, s: EntryRef, m: Value, dead: set<PortId>): (res: (Registry, seq<Effect>))
    requires Valid(r) && s in r.entries
    ensures Valid(res.0) && res.0.tabs == r.tabs && res.0.entries.Keys == r.entries.Keys
    ensures forall e :: e in r.entries && e != s ==> res.0.entries[e] == r.entries[e]
    ensures CarriesForms(m) ==>
      var before := r.entries[s];
      var after := res.0.entries[s];
      && after.forms == ArrayItems(Get(m, "forms"))
      && after.content == before.content
      && after.popup == (if before.popup.Some? && before.popup.value in dead then None else before.popup)
      && res.1 == (if before.popup.Some? && before.popup.value !in dead then [Deliver(before.popup.value, FormsData(after.forms))] else [])
    ensures MessageType(m) == Some("badge-update") ==> res == (r, Badge(tab, NumberOrZero(Get(m, "count"))))
    ensures !CarriesForms(m) && MessageType(m) != Some("badge-update") ==> res == (r, [])
  {
    if CarriesForms(m) then
      var st := r.entries[s];
      var forms := ArrayItems(Get(m, "forms"));
      var sent := Send(st.popup, FormsData(forms), dead);
      (Put(r, s, PageState(forms, st.content, if sent.failed then None else st.popup)), sent.effects)
    else if MessageType(m) == Some("badge-update") then
      (r, Badge(tab, NumberOrZero(Get(m, "count"))))
    else
      (r, [])
  }

  /** `if (!tabId) return;` */
  predicate TabTruthy(t: Option<TabId>) {
    t.Some? && t.value != 0
  }

  /** The listeners a connection installs: which tab and which entry object
      they close over. */
  datatype Binding = ContentBinding(tab: TabId, entry: EntryRef) | PopupBinding(tab: TabId, entry: EntryRef, port: PortId)

  /**
   * `connectContent(port)`: for a sender tab id that is set, the tab's entry
   * (created if needed) takes the port as its content port, superseding any
   * earlier one, and the port's listeners close over that entry.
   */
  function ConnectContent(r: Registry, port: PortId, senderTab: Option<TabId>): (res: (Registry, Option<Binding>))
    requires Valid(r)
    ensures Valid(res.0)
    ensures !TabTruthy(senderTab) ==> res == (r, None)
    ensures TabTruthy(senderTab) ==>
      var t := senderTab.value;
      && t in res.0.tabs
      && res.1 == Some(ContentBinding(t, res.0.tabs[t]))
      && Lookup(res.0, t).value.content == Some(port)
      && Lookup(res.0, t).value.popup == (if t in r.tabs then Lookup(r, t).value.popup else None)
      && Lookup(res.0, t).value.forms == (if t in r.tabs then Lookup(r, t).value.forms else [])
      && forall u :: u != t ==> Lookup(res.0, u) == Lookup(r, u)
    ensures TabTruthy(senderTab) ==> KeepsOtherEntries(r, res.0, senderTab.value)
    ensures TabTruthy(senderTab) ==> KeepsTabLinks(r, res.0, senderTab.value)
  {
    if !TabTruthy(senderTab) then (r, None)
    else
      var t := senderTab.value;
      var (r1, s) := S(r, t);
      (Put(r1, s, r1.entries[s].(content := Some(port))), Some(ContentBinding(t, s)))
  }

  /**
   * The content port's `onDisconnect` listener: through `S(tabId)`, so the
   * tab has an entry afterwards even if it had none, the content port is
   * forgotten only if it is still this port, the forms are emptied and the
   * badge reset to zero.
   */
  function OnContentDisconnect(r: Registry, tab: TabId, port: PortId): (res: (Registry, seq<Effect>))
    requires Valid(r)
    ensures Valid(res.0)
    ensures tab in res.0.tabs
    ensures Lookup(res.0, tab).value.forms == []
    ensures Lookup(res.0, tab).value.content ==
      (if tab in r.tabs && Lookup(r, tab).value.content != Some(port) then Lookup(r, tab).value.content else None)
    ensures Lookup(res.0, tab).value.popup == (if tab in r.tabs then Lookup(r, tab).value.popup else None)
    ensures forall u :: u != tab ==> Lookup(res.0, u) == Lookup(r, u)
    ensures KeepsOtherEntries(r, res.0, tab)
    ensures KeepsTabLinks(r, res.0, tab)
    ensures res.1 == Badge(tab, 0)
  {
    var (r1, s) := S(r, tab);
    var st := r1.entries[s];
    var content := if st.content == Some(port) then None else st.content;
    (Put(r1, s, PageState([], content, st.popup)), Badge(tab, 0))
  }

  /**
   * `connectPopup(port)` after `activeTabId()` resolved to `activeTab`: for a
   * set tab id, the tab's entry (created if needed) takes the port as its
   * popup, the cached forms go to the popup first, and then the content port,
   * if any, is asked for its current forms, forgetting only the content port
   * if that send fails.
   */
  function ConnectPopup(r: Registry, port: PortId, activeTab: Option<TabId>, dead: set<PortId>): (res: (Registry, seq<Effect>, Option<Binding>))
    requires Valid(r)
    ensures Valid(res.0)
    ensures !TabTruthy(activeTab) ==> res == (r, [], None)
    ensures TabTruthy(activeTab) ==>
      var t := activeTab.value;
      var before := if t in r.tabs then Lookup(r, t).value else EmptyPage;
      && t in res.0.tabs
      && res.2 == Some(PopupBinding(t, res.0.tabs[t], port))
      && Lookup(res.0, t).value.popup == Some(port)
      && Lookup(res.0, t).value.forms == before.forms
      && Lookup(res.0, t).value.content == (if before.content.Some? && before.content.value in dead then None else before.content)
      && res.1 == (if port !in dead then [Deliver(port, FormsData(before.forms))] else [])
                  + (if before.content.Some? && before.content.value !in dead then [Deliver(before.content.value, GetCurrentForms)] else [])
      && forall u :: u != t ==> Lookup(res.0, u) == Lookup(r, u)
    ensures TabTruthy(activeTab) ==> KeepsOtherEntries(r, res.0, activeTab.value)
    ensures TabTruthy(activeTab) ==> KeepsTabLinks(r, res.0, activeTab.value)
  {
    if !TabTruthy(activeTab) then (r, [], None)
    else
      var t := activeTab.value;
      var (r1, s) := S(r, t);
      var st := r1.entries[s].(popup := Some(port));
      var reply := Send(Some(port), FormsData(st.forms), dead);
      var ask := Send(st.content, GetCurrentForms, dead);
      var st' := if ask.failed then st.(content := None) else st;
      (Put(r1, s, st'), reply.effects + ask.effects, Some(PopupBinding(t, s, port)))
  }

  /**
   * `onPopupMessage(tabId, s, port)(m)`. `get-forms` sends the entry's forms
   * to this popup port and then asks the content port for fresh ones;
   * `refresh` forwards a refresh request to the content port. A failed send
   * to the content port forgets only the content port; with no content port
   * nothing is sent. Any other message does nothing.
   */
  function OnPopupMessage(r: Registry, s: EntryRef, port: PortId, m: Value, dead: set<PortId>): (res: (Registry, seq<Effect>))
    requires Valid(r) && s in r.entries
    ensures Valid(res.0) && res.0.tabs == r.tabs && res.0.entries.Keys == r.entries.Keys
    ensures forall e :: e in r.entries && e != s ==> res.0.entries[e] == r.entries[e]
    ensures var before := r.entries[s]; var after := res.0.entries[s];
      && after.forms == before.forms
      && after.popup == before.popup
      && after.content == (if MessageType(m) in {Some("get-forms"), Some("refresh")} && before.content.Some? && before.content.value in dead then None else before.content)
    ensures MessageType(m) == Some("get-forms") ==>
      var before := r.entries[s];
      res.1 == (if port !in dead then [Deliver(port, FormsData(before.forms))] else [])
               + (if before.content.Some? && before.content.value !in dead then [Deliver(before.content.value, GetCurrentForms)] else [])
    ensures MessageType(m) == Some("refresh") ==>
      var before := r.entries[s];
      res.1 == (if before.content.Some? && before.content.value !in dead then [Deliver(before.content.value, RefreshRequest)] else [])
    ensures MessageType(m) != Some("get-forms") && MessageType(m) != Some("refresh") ==> res == (r, [])
  {
    var st := r.entries[s];
    if MessageType(m) == Some("get-forms") then
      var reply := Send(Some(port), FormsData(st.forms), dead);
      var ask := Send(st.content, GetCurrentForms, dead);
      (Put(r, s, if ask.failed then st.(content := None) else st), reply.effects + ask.effects)
    else if MessageType(m) == Some("refresh") then
      var ask := Send(st.content, RefreshRequest, dead);
      (Put(r, s, if ask.failed then st.(content := None) else st), ask.effects)
    else
      (r, [])
  }

  /** The popup port's `onDisconnect` listener: through `S(tabId)`, the popup
      is forgotten only if it is still this port. */
  function OnPopupDisconnect(r: Registry, tab: TabId, port: PortId): (res: Registry)
    requires Valid(r)
    ensures Valid(res)
    ensures tab in res.tabs
    ensures Lookup(res, tab).value.popup ==
      (if tab in r.tabs && Lookup(r, tab).value.popup != Some(port) then Lookup(r, tab).value.popup else None)
    ensures Lookup(res, tab).value.forms == (if tab in r.tabs then Lookup(r, tab).value.forms else [])
    ensures Lookup(res, tab).value.content == (if tab in r.tabs then Lookup(r, tab).value.content else None)
    ensures forall u :: u != tab ==> Lookup(res, u) == Lookup(r, u)
    ensures KeepsOtherEntries(r, res, tab)
    ensures KeepsTabLinks(r, res, tab)
  {
    var (r1, s) := S(r, tab);
    var st := r1.entries[s];
    Put(r1, s, st.(popup := if st.popup == Some(port) then None else st.popup))
  }

  /**
   * `cleanup(tabId)`, on tab removal: an unknown tab is left alone with no
   * effect at all; otherwise its ports are disconnected, its entry unlinked,
   * and its badge reset to zero. Every other tab keeps its entry.
   */
  function Cleanup(r: Registry, tab: TabId): (res: (Registry, seq<Effect>))
    requires Valid(r)
    ensures Valid(res.0)
    ensures tab !in r.tabs ==> res == (r, [])
    ensures tab !in res.0.tabs
    ensures res.0.entries == r.entries
    ensures res.0.tabs == r.tabs - {tab}
    ensures forall u :: u != tab ==> Lookup(res.0, u) == Lookup(r, u)
    ensures tab in r.tabs ==>
      var st := Lookup(r, tab).value;
      res.1 == (if st.content.Some? then [Disconnect(st.content.value)] else [])
               + (if st.popup.Some? then [Disconnect(st.popup.value)] else [])
               + Badge(tab, 0)
  {
    if tab !in r.tabs then (r, [])
    else
      var st := r.entries[r.tabs[tab]];
      var closing := (if st.content.Some? then [Disconnect(st.content.value)] else [])
                     + (if st.popup.Some? then [Disconnect(st.popup.value)] else []);
      (r.(tabs := r.tabs - {tab}), closing + Badge(tab, 0))
  }

  /** The port name the content script connects with. */
  const ContentPortName: string := Protocol.Source
  const PopupPortName: string := "popup"

  /** `runtime.onConnect`: route a new port by its name; other names are ignored. */
  function OnConnect(r: Registry, port: PortId, name: string, senderTab: Option<TabId>, activeTab: Option<TabId>, dead: set<PortId>)
    : (res: (Registry, seq<Effect>, Option<Binding>))
    requires Valid(r)
    ensures Valid(res.0)
    ensures name == ContentPortName ==> res == (ConnectContent(r, port, senderTab).0, [], ConnectContent(r, port, senderTab).1)
    ensures name == PopupPortName ==> res == ConnectPopup(r, port, activeTab, dead)
    ensures name != ContentPortName && name != PopupPortName ==> res == (r, [], None)
    ensures res.2.Some? ==> (res.2.value.ContentBinding? <==> name == ContentPortName)
  {
    if name == ContentPortName then
      var (r', b) := ConnectContent(r, port, senderTab);
      (r', [], b)
    else if name == PopupPortName then ConnectPopup(r, port, activeTab, dead)
    else (r, [], None)
  }

  /**
   * A content port superseded by a newer one for the same tab stays wired to
   * the same entry. Its disconnect leaves the newer port registered, but
   * still empties the tab's forms and resets its badge.
   */
  lemma SupersededContentDisconnect(r: Registry, t: TabId, p1: PortId, p2: PortId)
    requires Valid(r) && t != 0 && p1 != p2
    ensures var c1 := ConnectContent(r, p1, Some(t));
      var c2 := ConnectContent(c1.0, p2, Some(t));
      var d := OnContentDisconnect(c2.0, t, p1);
      && c1.1 == c2.1
      && Lookup(d.0, t).value.content == Some(p2)
      && Lookup(d.0, t).value.forms == []
      && d.1 == Badge(t, 0)
  {
  }

  /** A popup superseded by a newer one does not unregister it when it closes. */
  lemma SupersededPopupDisconnect(r: Registry, t: TabId, p1: PortId, p2: PortId, dead: set<PortId>)
    requires Valid(r) && t != 0 && p1 != p2
    ensures var c1 := ConnectPopup(r, p1, Some(t), dead);
      var c2 := ConnectPopup(c1.0, p2, Some(t), dead);
      Lookup(OnPopupDisconnect(c2.0, t, p1), t).value.popup == Some(p2)
  {
  }

  /**
   * After a newer content port took over, a message still arriving on the
   * older one writes the forms the tab's registry entry holds, because both
   * ports' listeners close over the same entry object.
   */
  lemma SupersededContentPortStillWrites(r: Registry, t: TabId, p1: PortId, p2: PortId, m: Value, dead: set<PortId>)
    requires Valid(r) && t != 0 && CarriesForms(m)
    ensures var c1 := ConnectContent(r, p1, Some(t));
      var c2 := ConnectContent(c1.0, p2, Some(t));
      var s := c1.1.value.entry;
      s in c2.0.entries
      && Lookup(OnContentMessage(c2.0, t, s, m, dead).0, t).value.forms == ArrayItems(Get(m, "forms"))
  {
    var c1 := ConnectContent(r, p1, Some(t));
    var c2 := ConnectContent(c1.0, p2, Some(t));
    assert c2.0.tabs[t] == c1.1.value.entry;
  }

  /**
   * Once `cleanup` has unlinked a tab, a listener still holding the unlinked
   * entry writes only to that detached object: no tab's registry entry
   * changes.
   */
  lemma DetachedEntryWritesAreInvisible(r: Registry, t: TabId, m: Value, dead: set<PortId>)
    requires Valid(r) && t in r.tabs
    ensures var c := Cleanup(r, t).0;
      var s := r.tabs[t];
      s in c.entries
      && forall u :: Lookup(OnContentMessage(c, t, s, m, dead).0, u) == Lookup(c, u)
  {
    var c := Cleanup(r, t).0;
    var s := r.tabs[t];
    var res := OnContentMessage(c, t, s, m, dead).0;
    forall u
      ensures Lookup(res, u) == Lookup(c, u)
    {
      if u in c.tabs {
        assert c.tabs[u] != s;
      }
    }
  }

  /**
   * A content disconnect arriving after `cleanup` re-creates an empty entry
   * for the closed tab through `S(tabId)`.
   */
  lemma DisconnectAfterCleanupRecreatesEntry(r: Registry, t: TabId, p: PortId)
    requires Valid(r)
    ensures var c := Cleanup(r, t).0;
      Lookup(OnContentDisconnect(c, t, p).0, t) == Some(EmptyPage)
  {
  }

  /** With no content port registered, a popup's `refresh` is a silent no-op. */
  lemma RefreshWithoutContentIsSilent(r: Registry, s: EntryRef, port: PortId, m: Value, dead: set<PortId>)
    requires Valid(r) && s in r.entries && r.entries[s].content.None?
    requires MessageType(m) == Some("refresh")
    ensures OnPopupMessage(r, s, port, m, dead) == (r, [])
  {
    assert r.(entries := r.entries[s := r.entries[s]]) == r;
  }

  /** `new Map()`: the empty registry is well formed and knows no tab. */
  lemma InitialRegistryValid(t: TabId)
    ensures Valid(InitialRegistry)
    ensures Lookup(InitialRegistry, t) == None
  {
  }
}

=== FILE: decimal.dfy ===
/**
 * Decimal text of non-negative integers: JavaScript's `String(n)` for the
 * integers this extension prints (badge counts, form indices), and the
 * digit-string case of `Number(s)`.
 */
module Decimal {
  import opened Wrappers

  predicate IsDigit(c: char) {
    '0' <= c <= '9'
  }

  predicate AllDigits(s: string) {
    forall i :: 0 <= i < |s| ==> IsDigit(s[i])
  }

  function DigitChar(d: nat): (c: char)
    requires d < 10
    ensures IsDigit(c)
  {
    ('0' as int + d) as char
  }

  function DigitValue(c: char): (d: nat)
    requires IsDigit(c)
    ensures d < 10
  {
    c as int - '0' as int
  }

  /** `String(n)`: the shortest decimal numeral of `n`. */
  function Show(n: nat): (s: string)
    ensures |s| > 0 && AllDigits(s)
    ensures s[0] == '0' ==> n == 0
  {
    if n < 10 then [DigitChar(n)] else Show(n / 10) + [DigitChar(n % 10)]
  }

  /** The number a string of digits denotes, most significant digit first. */
  function ValueOf(s: string): nat
    requires AllDigits(s)
  {
    if s == [] then 0 else ValueOf(s[..|s| - 1]) * 10 + DigitValue(s[|s| - 1])
  }

  /** Reads a non-empty string of decimal digits; anything else is rejected. */
  function Parse(s: string): Option<nat> {
    if |s| > 0 && AllDigits(s) then Some(ValueOf(s)) else None
  }

  /** Reading back what `Show` printed gives the number again. */
  lemma {:induction false} ParseShow(n: nat)
    ensures Parse(Show(n)) == Some(n)
  {
    var s := Show(n);
    if n < 10 {
      assert DigitValue(DigitChar(n)) == n;
    } else {
      ParseShow(n / 10);
      assert s[..|s| - 1] == Show(n / 10);
      assert DigitValue(s[|s| - 1]) == n % 10;
      assert ValueOf(s) == ValueOf(Show(n / 10)) * 10 + n % 10;
    }
  }

  /** Distinct numbers print as distinct numerals. */
  lemma ShowInjective(m: nat, n: nat)
    ensures Show(m) == Show(n) ==> m == n
  {
    ParseShow(m);
    ParseShow(n);
  }
}

=== FILE: fiber_graph.dfy ===
/**
 * React's fiber tree as `traverseFiber` sees it (src/inject.js): a heap of
 * fibers keyed by node id, each with an optional `child` and an optional
 * `sibling` edge. Nothing forces the edges to form a tree, so the graph may
 * share nodes or contain cycles.
 */
module FiberGraph {
  import opened Wrappers
  import opened JsValue

  type NodeId = nat

  /** The parts of a fiber the scanner reads. */
  datatype Fiber = Fiber(typ: Value, memoizedProps: Value, child: Option<NodeId>, sibling: Option<NodeId>)

  /** Every fiber object reachable from the roots, by id. An edge naming an id
      with no entry behaves like an absent edge. */
  type Graph = map<NodeId, Fiber>

  /** The ids `traverseFiber` enqueues after visiting `f`: the child first,
      then the sibling, each only when present. */
  function Pushes(g: Graph, f: NodeId): (r: seq<NodeId>)
    requires f in g
    ensures forall m :: m in r <==> g[f].child == Some(m) || g[f].sibling == Some(m)
  {
    (if g[f].child.Some? then [g[f].child.value] else [])
      + (if g[f].sibling.Some? then [g[f].sibling.value] else [])
  }

  /** An edge between two fibers of the graph. */
  predicate Edge(g: Graph, a: NodeId, b: NodeId) {
    a in g && b in g && (g[a].child == Some(b) || g[a].sibling == Some(b))
  }

  /** A non-empty walk along edges. */
  ghost predicate IsPath(g: Graph, p: seq<NodeId>) {
    && |p| > 0
    && p[0] in g
    && forall i :: 0 <= i < |p| - 1 ==> Edge(g, p[i], p[i + 1])
  }

  /** `b` can be reached from `a` by following `child`/`sibling` edges. */
  ghost predicate Reachable(g: Graph, a: NodeId, b: NodeId) {
    exists p :: IsPath(g, p) && p[0] == a && p[|p| - 1] == b
  }

  /** A set of fibers that no edge leaves. */
  ghost predicate Closed(g: Graph, s: set<NodeId>) {
    forall a, b :: a in s && Edge(g, a, b) ==> b in s
  }

  predicate NoDuplicates(s: seq<NodeId>) {
    forall i, j :: 0 <= i < j < |s| ==> s[i] != s[j]
  }

  /**
   * The breadth-first loop of `traverseFiber`, from a given queue and seen
   * set: dequeue the front id, skip it when it names no fiber or was seen
   * before, otherwise visit it and enqueue its child and sibling. The result
   * is the sequence of visited ids. Each visit adds a fiber to `seen`, and a
   * skip shortens the queue, so the walk ends even on cyclic graphs.
   */
  function Walk(g: Graph, queue: seq<NodeId>, seen: set<NodeId>): seq<NodeId>
    decreases |g.Keys - seen|, |queue|
  {
    if queue == [] then []
    else
      var f := queue[0];
      if f !in g || f in seen then Walk(g, queue[1..], seen)
      else
        VisitShrinksUnseen(g, seen, f);
        [f] + Walk(g, queue[1..] + Pushes(g, f), seen + {f})
  }

  /**
   * `traverseFiber(root, visit)`: the ids passed to `visit`, in order, with a
   * fresh seen set. A missing root visits nothing; otherwise the root comes
   * first, no fiber comes twice, and the visited fibers are exactly those
   * reachable from the root.
   */
  function Traverse(g: Graph, root: Option<NodeId>): (order: seq<NodeId>)
    ensures root.None? ==> order == []
    ensures root.Some? && root.value in g ==> |order| > 0 && order[0] == root.value
    ensures NoDuplicates(order)
    ensures forall n :: n in order <==> root.Some? && Reachable(g, root.value, n)
  {
    if root.None? then []
    else
      var order := Walk(g, [root.value], {});
      WalkVisitsFreshFibers(g, [root.value], {});
      WalkSound(g, [root.value], {});
      WalkComplete(g, [root.value], {});
      forall n | Reachable(g, root.value, n)
        ensures n in order
      {
        ClosedContainsReachable(g, (set x | x in order), root.value, n);
      }
      order
  }

  /** The same traversal as a loop over a mutable queue and seen set, in the
      shape of the source. */
  method TraverseFiber(g: Graph, root: Option<NodeId>) returns (order: seq<NodeId>)
    ensures order == Traverse(g, root)
  {
    order := [];
    if root.None? {
      return;
    }
    var seen: set<NodeId> := {};
    var q := [root.value];
    while q != []
      invariant order + Walk(g, q, seen) == Traverse(g, root)
      decreases |g.Keys - seen|, |q|
    {
      var f := q[0];
      if f !in g || f in seen {
        assert Walk(g, q, seen) == Walk(g, q[1..], seen);
        q := q[1..];
        continue;
      }
      VisitShrinksUnseen(g, seen, f);
      assert Walk(g, q, seen) == [f] + Walk(g, q[1..] + Pushes(g, f), seen + {f});
      assert order + ([f] + Walk(g, q[1..] + Pushes(g, f), seen + {f}))
        == (order + [f]) + Walk(g, q[1..] + Pushes(g, f), seen + {f});
      q := q[1..];
      seen := seen + {f};
      order := order + [f];
      q := q + Pushes(g, f);
    }
  }

  /** Every visited id names a fiber not seen before, and none is visited twice. */
  lemma {:induction false} WalkVisitsFreshFibers(g: Graph, queue: seq<NodeId>, seen: set<NodeId>)
    ensures forall n :: n in Walk(g, queue, seen) ==> n in g && n !in seen
    ensures NoDuplicates(Walk(g, queue, seen))
    decreases |g.Keys - seen|, |queue|
  {
    if queue != [] {
      var f := queue[0];
      if f !in g || f in seen {
        WalkVisitsFreshFibers(g, queue[1..], seen);
      } else {
        VisitShrinksUnseen(g, seen, f);
        WalkVisitsFreshFibers(g, queue[1..] + Pushes(g, f), seen + {f});
      }
    }
  }

  /** Every visited fiber is reachable from some id of the queue. */
  lemma {:induction false} WalkSound(g: Graph, queue: seq<NodeId>, seen: set<NodeId>)
    ensures forall n :: n in Walk(g, queue, seen) ==> exists i :: 0 <= i < |queue| && Reachable(g, queue[i], n)
    decreases |g.Keys - seen|, |queue|
  {
    if queue != [] {
      var f := queue[0];
      if f !in g || f in seen {
        WalkSound(g, queue[1..], seen);
        assert Walk(g, queue, seen) == Walk(g, queue[1..], seen);
        forall n | n in Walk(g, queue, seen)
          ensures exists i :: 0 <= i < |queue| && Reachable(g, queue[i], n)
        {
          var i :| 0 <= i < |queue[1..]| && Reachable(g, queue[1..][i], n);
          assert queue[i + 1] == queue[1..][i];
        }
      } else {
        VisitShrinksUnseen(g, seen, f);
        var q' := queue[1..] + Pushes(g, f);
        WalkSound(g, q', seen + {f});
        forall n | n in Walk(g, queue, seen)
          ensures exists i :: 0 <= i < |queue| && Reachable(g, queue[i], n)
        {
          if n == f {
            assert IsPath(g, [f]);
            assert Reachable(g, queue[0], n);
          } else {
            assert n in Walk(g, q', seen + {f});
            var i :| 0 <= i < |q'| && Reachable(g, q'[i], n);
            if i < |queue| - 1 {
              assert queue[i + 1] == q'[i];
            } else {
              assert q'[i] in Pushes(g, f);
              ReachableStep(g, f, q'[i], n);
              assert Reachable(g, queue[0], n);
            }
          }
        }
      }
    }
  }

  /** Visiting an unseen fiber shrinks the set of fibers still unseen. */
  lemma VisitShrinksUnseen(g: Graph, seen: set<NodeId>, f: NodeId)
    requires f in g && f !in seen
    ensures |g.Keys - (seen + {f})| < |g.Keys - seen|
  {
    var unseen := g.Keys - seen;
    assert g.Keys - (seen + {f}) == unseen - {f};
    assert unseen == (unseen - {f}) + {f};
  }

  /** One edge in front of a path is again a path. */
  lemma ReachableStep(g: Graph, a: NodeId, b: NodeId, c: NodeId)
    requires a in g && (g[a].child == Some(b) || g[a].sibling == Some(b))
    requires Reachable(g, b, c)
    ensures Reachable(g, a, c)
  {
    var p :| IsPath(g, p) && p[0] == b && p[|p| - 1] == c;
    var p' := [a] + p;
    assert Edge(g, a, b);
    assert forall i :: 0 < i < |p'| - 1 ==> p'[i] == p[i - 1] && p'[i + 1] == p[i];
    assert IsPath(g, p');
  }

  /** Whatever the queue holds, and whatever leaves a seen fiber, ends up seen
      or visited, so seen-plus-visited is closed under edges. */
  lemma {:induction false} WalkComplete(g: Graph, queue: seq<NodeId>, seen: set<NodeId>)
    requires forall a, b :: a in seen && Edge(g, a, b) ==> b in seen || b in queue
    ensures forall n :: n in queue && n in g ==> n in seen || n in Walk(g, queue, seen)
    ensures Closed(g, seen + set n | n in Walk(g, queue, seen))
    decreases |g.Keys - seen|, |queue|
  {
    if queue != [] {
      var f := queue[0];
      if f !in g || f in seen {
        WalkComplete(g, queue[1..], seen);
        assert forall n :: n in queue ==> n == f || n in queue[1..];
      } else {
        VisitShrinksUnseen(g, seen, f);
        var q' := queue[1..] + Pushes(g, f);
        assert forall n :: n in queue ==> n == f || n in q';
        WalkComplete(g, q', seen + {f});
        assert (seen + {f}) + (set n | n in Walk(g, q', seen + {f}))
            == seen + (set n | n in Walk(g, queue, seen));
      }
    }
  }

  /** A closed set that holds `a` holds everything reachable from `a`. */
  lemma ClosedContainsReachable(g: Graph, s: set<NodeId>, a: NodeId, b: NodeId)
    requires Closed(g, s) && a in s
    requires Reachable(g, a, b)
    ensures b in s
  {
    var p :| IsPath(g, p) && p[0] == a && p[|p| - 1] == b;
    var k := 0;
    while k < |p| - 1
      invariant 0 <= k < |p|
      invariant p[k] in s
    {
      assert Edge(g, p[k], p[k + 1]);
      k := k + 1;
    }
  }
}

=== FILE: js_value.dfy ===
/**
 * The JavaScript values the extension reads and passes around: fiber props,
 * Formik bags, window and port message payloads. Objects, arrays and functions
 * are compared by content; object identity matters to the model only where a
 * module says so explicitly.
 */
module JsValue {
  import opened Wrappers
  import Decimal

  /** Numbers are integers here: the extension only ever produces counts and
      indices, and fractional or non-finite numbers are not modelled. */
  datatype Value =
    | Undefined
    | Null
    | Bool(b: bool)
    | Num(n: int)
    | Str(s: string)
    | Arr(items: seq<Value>)
    | Obj(props: map<string, Value>)
    | Func(props: map<string, Value>)

  /** `typeof v` */
  function TypeOf(v: Value): string {
    match v
    case Undefined => "undefined"
    case Null => "object"
    case Bool(_) => "boolean"
    case Num(_) => "number"
    case Str(_) => "string"
    case Arr(_) => "object"
    case Obj(_) => "object"
    case Func(_) => "function"
  }

  /** `x != null && typeof x === "object"`: arrays count as objects, functions do not. */
  predicate IsObj(v: Value): (b: bool)
    ensures b <==> !Nullish(v) && TypeOf(v) == "object"
  {
    v.Arr? || v.Obj?
  }

  /** `x == null`, which holds of exactly `null` and `undefined`. */
  predicate Nullish(v: Value) {
    v.Undefined? || v.Null?
  }

  /** JavaScript truthiness, as used by `!!x`, `x || y` and `if (x)`. */
  predicate Truthy(v: Value) {
    match v
    case Undefined => false
    case Null => false
    case Bool(b) => b
    case Num(n) => n != 0
    case Str(s) => s != ""
    case _ => true
  }

  /** `Array.prototype.values`, a function with no properties the code reads. */
  const ArrayValuesMethod: Value := Func(map[])

  /** The property read `v?.key`. Own properties of objects and functions are
      read from their maps; arrays and strings answer `length`, and arrays
      answer `values` with the inherited `Array.prototype.values` method;
      everything else reads as `undefined`. Array indices and the other
      inherited properties are not modelled. */
  function Get(v: Value, key: string): Value {
    match v
    case Obj(m) => if key in m then m[key] else Undefined
    case Func(m) => if key in m then m[key] else Undefined
    case Arr(items) =>
      if key == "length" then Num(|items|)
      else if key == "values" then ArrayValuesMethod
      else Undefined
    case Str(s) => if key == "length" then Num(|s|) else Undefined
    case _ => Undefined
  }

  /** `a ?? b` */
  function Coalesce(a: Value, b: Value): (r: Value)
    ensures !Nullish(b) ==> !Nullish(r)
    ensures !Nullish(a) ==> r == a
  {
    if Nullish(a) then b else a
  }

  /** `a || b` */
  function Or(a: Value, b: Value): (r: Value)
    ensures Truthy(r) <==> Truthy(a) || Truthy(b)
  {
    if Truthy(a) then a else b
  }

  /** The elements of `v` when `Array.isArray(v)`, otherwise none: the
      `Array.isArray(x) ? x : []` idiom. */
  function ArrayItems(v: Value): seq<Value> {
    if v.Arr? then v.items else []
  }

  /** `Number(s)` for a string: the empty string is 0 and an optionally signed
      run of decimal digits is its value; anything else is NaN (`None`).
      Surrounding white space, fractions, exponents and hexadecimal are not
      modelled. */
  function StringToNumber(s: string): (r: Option<int>)
    ensures r.Some? && r.value > 0 ==> |s| > 0 && s[0] != '-'
  {
    if s == "" then Some(0)
    else if s[0] == '-' then
      match Decimal.Parse(s[1..])
      case Some(n) => Some(-(n as int))
      case None => None
    else if s[0] == '+' then
      match Decimal.Parse(s[1..])
      case Some(n) => Some(n)
      case None => None
    else
      match Decimal.Parse(s)
      case Some(n) => Some(n)
      case None => None
  }

  /** `Number(v)`, with `None` for NaN. An array converts through its joined
      text: `[]` is 0, `[x]` converts like `x` (with `null`/`undefined` as 0
      and `true`/`false`, objects and functions as NaN), and any longer array
      has a comma in its text and is NaN. Objects are NaN (custom `valueOf`
      is not modelled). */
  function ToNumber(v: Value): Option<int> {
    match v
    case Undefined => None
    case Null => Some(0)
    case Bool(b) => Some(if b then 1 else 0)
    case Num(n) => Some(n)
    case Str(s) => StringToNumber(s)
    case Arr(items) =>
      if |items| == 0 then Some(0)
      else if |items| > 1 then None
      else if Nullish(items[0]) then Some(0)
      else if items[0].Bool? || items[0].Obj? || items[0].Func? then None
      else ToNumber(items[0])
    case Obj(_) => None
    case Func(_) => None
  }

  /** `Number(v) || 0`: NaN and zero both become 0. */
  function NumberOrZero(v: Value): int {
    match ToNumber(v)
    case Some(n) => n
    case None => 0
  }

  /** Whether the structured-clone algorithm behind `postMessage` accepts `v`:
      it throws a DataCloneError on any function inside the value. */
  predicate Cloneable(v: Value) {
    match v
    case Func(_) => false
    case Arr(items) => forall i :: 0 <= i < |items| ==> Cloneable(items[i])
    case Obj(m) => forall k :: k in m ==> Cloneable(m[k])
    case _ => true
  }

  /** `Number(String(n))` gives `n` back for every non-negative count. */
  lemma NumberOfShownCount(n: nat)
    ensures NumberOrZero(Str(Decimal.Show(n))) == n
  {
    Decimal.ParseShow(n);
  }
}

=== FILE: page_bridge.dfy ===
/**
 * The window-message hop between the page's scanner (src/inject.js) and the
 * content script (src/content.js), which agree on the message shapes. The
 * hop from the content script to the background coordinator is not composed
 * here: the two sides use different channels and message names.
 */
module PageBridge {
  import opened Wrappers
  import opened JsValue
  import opened Classify
  import Scanner
  import ContentRelay
  import Protocol

  /** The window message data of a run of scanner posts. */
  function EncodeAll(msgs: seq<Scanner.PageMsg>): (datas: seq<Value>)
    ensures |datas| == |msgs|
  {
    if msgs == [] then [] else [Scanner.EncodePageMsg(msgs[0])] + EncodeAll(msgs[1..])
  }

  /** The forms of the last `forms-update` among `msgs`, if any. */
  function LastForms(msgs: seq<Scanner.PageMsg>): Option<seq<FormData>> {
    if msgs == [] then None
    else match LastForms(msgs[1..])
      case Some(f) => Some(f)
      case None => if msgs[0].FormsUpdate? then Some(msgs[0].forms) else None
  }

  lemma {:induction false} LastFormsAppend(a: seq<Scanner.PageMsg>, b: seq<Scanner.PageMsg>)
    ensures LastForms(a + b) == if LastForms(b).Some? then LastForms(b) else LastForms(a)
  {
    if a == [] {
      assert a + b == b;
    } else {
      assert (a + b)[1..] == a[1..] + b;
      LastFormsAppend(a[1..], b);
    }
  }

  /** The fields of a scanner `forms-update` as the content script reads them. */
  lemma FormsUpdateFields(forms: seq<FormData>)
    ensures Get(Scanner.EncodePageMsg(Scanner.FormsUpdate(forms)), "source") == Str(Protocol.Source)
    ensures Get(Scanner.EncodePageMsg(Scanner.FormsUpdate(forms)), "type") == Str("forms-update")
    ensures Get(Scanner.EncodePageMsg(Scanner.FormsUpdate(forms)), "forms") == Arr(Scanner.EncodeForms(forms))
  {
    var m := map["source" := Str(Protocol.Source), "type" := Str("forms-update"), "forms" := Arr(Scanner.EncodeForms(forms))];
    assert Scanner.EncodePageMsg(Scanner.FormsUpdate(forms)) == Obj(m);
    assert m["source"] == Str(Protocol.Source);
    assert m["type"] == Str("forms-update");
  }

  /** A scanner `forms-update` becomes the content script's cache, and the
      badge count it reports is the number of forms. */
  lemma ContentCachesScannerForms(cache: Value, forms: seq<FormData>)
    ensures ContentRelay.OnWindowMessage(cache, Scanner.EncodePageMsg(Scanner.FormsUpdate(forms)))
      == (Arr(Scanner.EncodeForms(forms)), [ContentRelay.UpdateBadge(Num(|forms|))])
  {
    FormsUpdateFields(forms);
    var r := ContentRelay.OnWindowMessage(cache, Scanner.EncodePageMsg(Scanner.FormsUpdate(forms)));
    assert r.0 == Arr(Scanner.EncodeForms(forms));
    assert Get(r.0, "length") == Num(|forms|);
  }

  /** The content script ignores the scanner's `badge-update`. */
  lemma ContentIgnoresBadgeUpdate(cache: Value, count: nat)
    ensures ContentRelay.OnWindowMessage(cache, Scanner.EncodePageMsg(Scanner.BadgeUpdate(count))) == (cache, [])
  {
  }

  /** The content script's refresh request makes the scanner run `updateNow`. */
  lemma RefreshReachesScanner(st: Scanner.ScannerState, outcome: Scanner.ScanOutcome)
    ensures Scanner.OnWindowMessage(st, ContentRelay.RefreshRequestData, outcome) == Scanner.UpdateNow(st, outcome)
  {
  }

  /** Replaying scanner posts through the content script leaves the last
      posted forms in its cache. */
  lemma {:induction false} ReplayScannerPosts(cache: Value, msgs: seq<Scanner.PageMsg>)
    ensures ContentRelay.Replay(cache, EncodeAll(msgs))
      == if LastForms(msgs).Some? then Arr(Scanner.EncodeForms(LastForms(msgs).value)) else cache
    decreases |msgs|
  {
    if msgs != [] {
      var next := ContentRelay.OnWindowMessage(cache, Scanner.EncodePageMsg(msgs[0])).0;
      assert EncodeAll(msgs)[1..] == EncodeAll(msgs[1..]);
      ReplayScannerPosts(next, msgs[1..]);
    }
  }

  /** Whenever `updateNow` posts, the last forms it posts are the scanned ones. */
  lemma UpdatePostsItsForms(st: Scanner.ScannerState, outcome: Scanner.ScanOutcome)
    ensures Scanner.UpdateNow(st, outcome).1 != [] ==> LastForms(Scanner.UpdateNow(st, outcome).1) == Some(outcome.forms)
  {
    var msgs := Scanner.UpdateNow(st, outcome).1;
    if msgs != [] {
      var forms := outcome.forms;
      if |forms| != st.lastCount {
        assert msgs == [Scanner.FormsUpdate(forms), Scanner.BadgeUpdate(|forms|)];
        assert msgs[1..] == [Scanner.BadgeUpdate(|forms|)];
        assert msgs[1..][1..] == [];
        assert LastForms(msgs[1..]) == None;
      } else {
        assert msgs == [Scanner.FormsUpdate(forms)];
      }
    }
  }

  /** A run in which nothing was posted leaves `lastCount` alone. */
  lemma {:induction false} SilentRunKeepsCount(st: Scanner.ScannerState, outcomes: seq<Scanner.ScanOutcome>)
    requires LastForms(Scanner.Run(st, outcomes).1).None?
    ensures Scanner.Run(st, outcomes).0.lastCount == st.lastCount
    decreases |outcomes|
  {
    if outcomes != [] {
      var first := Scanner.UpdateNow(st, outcomes[0]);
      var rest := Scanner.Run(first.0, outcomes[1..]);
      LastFormsAppend(first.1, rest.1);
      UpdatePostsItsForms(st, outcomes[0]);
      SilentRunKeepsCount(first.0, outcomes[1..]);
    }
  }

  /** The last forms a run posted are as many as its final `lastCount`. */
  lemma {:induction false} LastPostedFormsMatchCount(st: Scanner.ScannerState, outcomes: seq<Scanner.ScanOutcome>)
    requires LastForms(Scanner.Run(st, outcomes).1).Some?
    ensures |LastForms(Scanner.Run(st, outcomes).1).value| == Scanner.Run(st, outcomes).0.lastCount
    decreases |outcomes|
  {
    var first := Scanner.UpdateNow(st, outcomes[0]);
    var rest := Scanner.Run(first.0, outcomes[1..]);
    LastFormsAppend(first.1, rest.1);
    if LastForms(rest.1).Some? {
      LastPostedFormsMatchCount(first.0, outcomes[1..]);
    } else {
      SilentRunKeepsCount(first.0, outcomes[1..]);
      UpdatePostsItsForms(st, outcomes[0]);
    }
  }

  /**
   * Over any run of scans relayed to the content script, once something has
   * been posted the content cache holds the last posted forms and its
   * `length`, the count the content script reports, equals the scanner's
   * `lastCount`.
   */
  lemma ContentAgreesWithScanner(st: Scanner.ScannerState, outcomes: seq<Scanner.ScanOutcome>, cache: Value)
    requires LastForms(Scanner.Run(st, outcomes).1).Some?
    ensures var r := Scanner.Run(st, outcomes);
      var c := ContentRelay.Replay(cache, EncodeAll(r.1));
      c == Arr(Scanner.EncodeForms(LastForms(r.1).value)) && Get(c, "length") == Num(r.0.lastCount)
  {
    var r := Scanner.Run(st, outcomes);
    ReplayScannerPosts(cache, r.1);
    LastPostedFormsMatchCount(st, outcomes);
  }
}

=== FILE: protocol.dfy ===
/**
 * The one name the extension's scripts share: the `source` tag on the page's
 * window messages (src/inject.js, src/content.js) and the name of the
 * content port (src/background.js).
 */
module Protocol {
  const Source: string := "formik-inspector"
}

=== FILE: scan.dfy ===
/**
 * `scanForms` (src/inject.js): traverse every root with a fresh seen set and
 * append a snapshot for each accepted bag, numbering the snapshots by their
 * position. Root discovery is not modelled: the hook's roots and the
 * fallback roots are inputs.
 */
module Scan {
  import opened Wrappers
  import opened JsValue
  import opened FiberGraph
  import opened Classify

  /** The bag carried by fiber `f`, if the classifier accepts it. */
  function BagAt(g: Graph, f: NodeId): Option<Value> {
    if f in g then GetFormikBag(g[f]) else None
  }

  /** `roots.length ? roots : getRootsFallback()` */
  function ChosenRoots(hookRoots: seq<NodeId>, fallbackRoots: seq<NodeId>): seq<NodeId> {
    if |hookRoots| > 0 then hookRoots else fallbackRoots
  }

  /** The fibers visited for all roots, root after root, each traversal with
      its own seen set. */
  function Visits(g: Graph, roots: seq<NodeId>): seq<NodeId> {
    if roots == [] then [] else Traverse(g, Some(roots[0])) + Visits(g, roots[1..])
  }

  /** The accepted bags among `ids`, in order. */
  function Bags(g: Graph, ids: seq<NodeId>): seq<Value> {
    if ids == [] then []
    else (if BagAt(g, ids[0]).Some? then [BagAt(g, ids[0]).value] else []) + Bags(g, ids[1..])
  }

  /** The visit callback of `scanForms` on one fiber: an accepted bag is
      appended as `toFormData(bag, forms.length)`. */
  function Visit(g: Graph, f: NodeId, forms: seq<FormData>): seq<FormData> {
    match BagAt(g, f)
    case Some(bag) => forms + [ToFormData(bag, |forms|)]
    case None => forms
  }

  /** The visit callback run over `ids` in turn. */
  function Collect(g: Graph, ids: seq<NodeId>, forms: seq<FormData>): seq<FormData> {
    if ids == [] then forms else Collect(g, ids[1..], Visit(g, ids[0], forms))
  }

  /** The `for (const root of allRoots)` loop. */
  function ScanRoots(g: Graph, roots: seq<NodeId>, forms: seq<FormData>): seq<FormData> {
    if roots == [] then forms
    else ScanRoots(g, roots[1..], Collect(g, Traverse(g, Some(roots[0])), forms))
  }

  /**
   * `scanForms()`: one snapshot per accepted bag met while traversing the
   * chosen roots, in encounter order, the i-th carrying id `form-i`.
   */
  function ScanForms(g: Graph, hookRoots: seq<NodeId>, fallbackRoots: seq<NodeId>): (forms: seq<FormData>)
    ensures var bags := Bags(g, Visits(g, ChosenRoots(hookRoots, fallbackRoots)));
      && |forms| == |bags|
      && forall i :: 0 <= i < |forms| ==> forms[i] == ToFormData(bags[i], i)
    ensures forall i :: 0 <= i < |forms| ==> forms[i].id == FormId(i)
  {
    var roots := ChosenRoots(hookRoots, fallbackRoots);
    ScanRootsCollectsVisits(g, roots, []);
    CollectNumbers(g, Visits(g, roots), []);
    forall i | 0 <= i < |Bags(g, Visits(g, roots))| {
      NumberedAt(Bags(g, Visits(g, roots)), 0, ToFormData, i);
    }
    assert [] + Numbered(Bags(g, Visits(g, roots)), 0, ToFormData) == Numbered(Bags(g, Visits(g, roots)), 0, ToFormData);
    ScanRoots(g, roots, [])
  }

  /** `mk` applied to each bag and its number, counting from `start`; with
      `mk := ToFormData` this is the reference for what `scanForms` builds. */
  function Numbered<T>(bags: seq<Value>, start: nat, mk: (Value, nat) -> T): (r: seq<T>)
    ensures |r| == |bags|
  {
    if bags == [] then [] else [mk(bags[0], start)] + Numbered(bags[1..], start + 1, mk)
  }

  /** The i-th element of `Numbered(bags, start, mk)` is that of the i-th
      bag, numbered `start + i`. */
  lemma {:induction false} NumberedAt<T>(bags: seq<Value>, start: nat, mk: (Value, nat) -> T, i: nat)
    requires i < |bags|
    ensures Numbered(bags, start, mk)[i] == mk(bags[i], start + i)
    decreases i
  {
    if i > 0 {
      NumberedAt(bags[1..], start + 1, mk, i - 1);
      assert Numbered(bags, start, mk)[i] == Numbered(bags[1..], start + 1, mk)[i - 1];
    }
  }

  /** Numbering a bag followed by more bags. */
  lemma NumberedCons<T>(bag: Value, rest: seq<Value>, start: nat, mk: (Value, nat) -> T)
    ensures Numbered([bag] + rest, start, mk) == [mk(bag, start)] + Numbered(rest, start + 1, mk)
  {
    assert ([bag] + rest)[1..] == rest;
  }

  /** Appending one element, then more, is appending both at once. */
  lemma AppendOneAssoc<T>(a: seq<T>, x: T, b: seq<T>)
    ensures (a + [x]) + b == a + ([x] + b)
  {
  }

  /** `Collect` appends one snapshot per accepted bag, each numbered by its
      position in the result. */
  lemma {:induction false} CollectNumbers(g: Graph, ids: seq<NodeId>, forms: seq<FormData>)
    ensures Collect(g, ids, forms) == forms + Numbered(Bags(g, ids), |forms|, ToFormData)
  {
    if ids == [] {
      assert forms + [] == forms;
    } else {
      var forms' := Visit(g, ids[0], forms);
      var rest := Bags(g, ids[1..]);
      CollectNumbers(g, ids[1..], forms');
      match BagAt(g, ids[0])
      case Some(bag) =>
        var snap := ToFormData(bag, |forms|);
        assert Visit(g, ids[0], forms) == forms + [snap];
        assert Bags(g, ids) == [bag] + rest;
        calc {
          Collect(g, ids, forms);
          Collect(g, ids[1..], forms + [snap]);
          (forms + [snap]) + Numbered(rest, |forms| + 1, ToFormData);
          { AppendOneAssoc(forms, snap, Numbered(rest, |forms| + 1, ToFormData)); }
          forms + ([snap] + Numbered(rest, |forms| + 1, ToFormData));
          { NumberedCons(bag, rest, |forms|, ToFormData); }
          forms + Numbered([bag] + rest, |forms|, ToFormData);
          forms + Numbered(Bags(g, ids), |forms|, ToFormData);
        }
      case None =>
        assert Visit(g, ids[0], forms) == forms;
        assert Bags(g, ids) == rest;
        calc {
          Collect(g, ids, forms);
          Collect(g, ids[1..], forms);
          forms + Numbered(rest, |forms|, ToFormData);
          forms + Numbered(Bags(g, ids), |forms|, ToFormData);
        }
    }
  }

  /** Collecting over two runs of ids is collecting over the first, then the second. */
  lemma {:induction false} CollectAppend(g: Graph, a: seq<NodeId>, b: seq<NodeId>, forms: seq<FormData>)
    ensures Collect(g, a + b, forms) == Collect(g, b, Collect(g, a, forms))
  {
    if a != [] {
      assert (a + b)[0] == a[0];
      assert (a + b)[1..] == a[1..] + b;
      CollectAppend(g, a[1..], b, Visit(g, a[0], forms));
    } else {
      assert a + b == b;
    }
  }

  /** The loop over roots collects over all their traversals in turn. */
  lemma {:induction false} ScanRootsCollectsVisits(g: Graph, roots: seq<NodeId>, forms: seq<FormData>)
    ensures ScanRoots(g, roots, forms) == Collect(g, Visits(g, roots), forms)
  {
    if roots != [] {
      var t := Traverse(g, Some(roots[0]));
      ScanRootsCollectsVisits(g, roots[1..], Collect(g, t, forms));
      CollectAppend(g, t, Visits(g, roots[1..]), forms);
    }
  }

  /** How many of the roots reach `n`, counted with repetition. */
  ghost function RootsReaching(g: Graph, roots: seq<NodeId>, n: NodeId): nat {
    if roots == [] then 0
    else (if Reachable(g, roots[0], n) then 1 else 0) + RootsReaching(g, roots[1..], n)
  }

  /** A sequence without duplicates holds each element once. */
  lemma {:induction false} NoDuplicatesCount(s: seq<NodeId>, n: NodeId)
    requires NoDuplicates(s)
    ensures multiset(s)[n] == if n in s then 1 else 0
  {
    if s != [] {
      assert s == [s[0]] + s[1..];
      assert NoDuplicates(s[1..]);
      NoDuplicatesCount(s[1..], n);
    }
  }

  /** Because every root gets a fresh seen set, a fiber is visited once for
      every root that reaches it: a fiber shared by two roots is scanned, and
      its bag emitted, twice. */
  lemma {:induction false} VisitCount(g: Graph, roots: seq<NodeId>, n: NodeId)
    ensures multiset(Visits(g, roots))[n] == RootsReaching(g, roots, n)
  {
    if roots != [] {
      NoDuplicatesCount(Traverse(g, Some(roots[0])), n);
      VisitCount(g, roots[1..], n);
    }
  }
}

=== FILE: scanner.dfy ===
/**
 * The running scanner of src/inject.js: `post` with its `lastCount`,
 * `updateNow` with its try/catch, the debounce timer, the wrapper around the
 * DevTools hook's `onCommitFiberRoot`, and the window listener that answers
 * refresh requests. Timers are abstract ids; which timer fires when is an
 * input, and so are the outcome of the original hook and whether a scan threw.
 */
module Scanner {
  import opened Wrappers
  import opened JsValue
  import opened Classify
  import opened Protocol
  import FiberGraph
  import Scan

  /** What the scanner posts to the window. */
  datatype PageMsg = FormsUpdate(forms: seq<FormData>) | BadgeUpdate(count: nat)

  type TimerId = nat

  /**
   * `lastCount`, `debounceId`, and the debounce timers currently armed.
   * Browsers hand out positive timer ids, so ids start at 1 and
   * `if (debounceId)` is the test `debounceId.Some?`.
   */
  datatype ScannerState = ScannerState(lastCount: nat, debounceId: Option<TimerId>, armed: set<TimerId>, nextTimer: TimerId)

  const Initial: ScannerState := ScannerState(0, None, {}, 1)

  /** A snapshot as it is posted: an object with the eleven fields of `toFormData`. */
  function EncodeForm(d: FormData): Value {
    Obj(map[
      "id" := Str(d.id),
      "values" := d.values,
      "errors" := d.errors,
      "touched" := d.touched,
      "isSubmitting" := Bool(d.isSubmitting),
      "isValidating" := Bool(d.isValidating),
      "isValid" := d.isValid,
      "submitCount" := d.submitCount,
      "dirty" := Bool(d.dirty),
      "status" := d.status,
      "initialValues" := d.initialValues])
  }

  function EncodeForms(forms: seq<FormData>): (items: seq<Value>)
    ensures |items| == |forms|
    ensures forall i :: 0 <= i < |forms| ==> items[i] == EncodeForm(forms[i])
  {
    if forms == [] then [] else [EncodeForm(forms[0])] + EncodeForms(forms[1..])
  }

  /** The window message data of each message (the timestamp is left out). */
  function EncodePageMsg(m: PageMsg): Value {
    match m
    case FormsUpdate(forms) =>
      Obj(map["source" := Str(Source), "type" := Str("forms-update"), "forms" := Arr(EncodeForms(forms))])
    case BadgeUpdate(count) =>
      Obj(map["source" := Str(Source), "type" := Str("badge-update"), "count" := Num(count)])
  }

  /**
   * `post(forms)`: always one `forms-update` carrying the forms, then a
   * `badge-update` exactly when the count differs from `lastCount`, which
   * afterwards is the count. Nothing is suppressed when the forms are
   * unchanged.
   */
  function Post(st: ScannerState, forms: seq<FormData>): (r: (ScannerState, seq<PageMsg>))
    ensures |r.1| >= 1 && r.1[0] == FormsUpdate(forms)
    ensures (exists i :: 0 <= i < |r.1| && r.1[i].BadgeUpdate?) <==> |forms| != st.lastCount
    ensures forall i :: 0 <= i < |r.1| && r.1[i].BadgeUpdate? ==> r.1[i].count == |forms|
    ensures |r.1| == if |forms| != st.lastCount then 2 else 1
    ensures r.0.lastCount == |forms|
    ensures r.0.armed == st.armed && r.0.debounceId == st.debounceId && r.0.nextTimer == st.nextTimer
  {
    if |forms| != st.lastCount then
      var msgs := [FormsUpdate(forms), BadgeUpdate(|forms|)];
      assert msgs[1].BadgeUpdate?;
      (st.(lastCount := |forms|), msgs)
    else
      (st, [FormsUpdate(forms)])
  }

  /** How a call to `scanForms()` ended. */
  datatype ScanOutcome = Scanned(forms: seq<FormData>) | ScanThrew

  /**
   * `updateNow()`: scan and post, inside a try/catch. A scan that throws, or
   * forms the structured clone of `postMessage` rejects (a function inside
   * them), raise before anything is posted or `lastCount` changes; the
   * exception is swallowed.
   */
  function UpdateNow(st: ScannerState, outcome: ScanOutcome): (r: (ScannerState, seq<PageMsg>))
    ensures outcome.ScanThrew? ==> r == (st, [])
    ensures r.1 != [] <==> outcome.Scanned? && Cloneable(EncodePageMsg(FormsUpdate(outcome.forms)))
    ensures r.1 != [] ==> r == Post(st, outcome.forms)
    ensures r.1 == [] ==> r.0 == st
  {
    match outcome
    case ScanThrew => (st, [])
    case Scanned(forms) =>
      if Cloneable(EncodePageMsg(FormsUpdate(forms))) then Post(st, forms) else (st, [])
  }

  /** The count of the most recent `badge-update` in `msgs`, or `dflt` if none. */
  function LastBadge(msgs: seq<PageMsg>, dflt: nat): nat {
    if msgs == [] then dflt
    else if msgs[|msgs| - 1].BadgeUpdate? then msgs[|msgs| - 1].count
    else LastBadge(msgs[..|msgs| - 1], dflt)
  }

  lemma {:induction false} LastBadgeAppend(a: seq<PageMsg>, b: seq<PageMsg>, dflt: nat)
    ensures LastBadge(a + b, dflt) == LastBadge(b, LastBadge(a, dflt))
    decreases |b|
  {
    if b != [] {
      assert (a + b)[..|a + b| - 1] == a + b[..|b| - 1];
      LastBadgeAppend(a, b[..|b| - 1], dflt);
    } else {
      assert a + b == a;
    }
  }

  /** One `updateNow` keeps `lastCount` equal to the last badge count posted. */
  lemma UpdateNowKeepsBadgeInSync(st: ScannerState, outcome: ScanOutcome)
    ensures LastBadge(UpdateNow(st, outcome).1, st.lastCount) == UpdateNow(st, outcome).0.lastCount
  {
    var r := UpdateNow(st, outcome);
    if r.1 != [] {
      var forms := outcome.forms;
      if |forms| != st.lastCount {
        assert r.1 == [FormsUpdate(forms), BadgeUpdate(|forms|)];
      } else {
        assert r.1 == [FormsUpdate(forms)];
        assert r.1[..0] == [];
      }
    }
  }

  /** A run of `updateNow` calls, collecting everything they post. */
  function Run(st: ScannerState, outcomes: seq<ScanOutcome>): (ScannerState, seq<PageMsg>)
    decreases |outcomes|
  {
    if outcomes == [] then (st, [])
    else
      var first := UpdateNow(st, outcomes[0]);
      var rest := Run(first.0, outcomes[1..]);
      (rest.0, first.1 + rest.1)
  }

  /** Over any run from any state, `lastCount` is the count of the last
      `badge-update` posted, or the starting `lastCount` if none was. */
  lemma {:induction false} RunKeepsBadgeInSync(st: ScannerState, outcomes: seq<ScanOutcome>)
    ensures LastBadge(Run(st, outcomes).1, st.lastCount) == Run(st, outcomes).0.lastCount
    decreases |outcomes|
  {
    if outcomes != [] {
      var first := UpdateNow(st, outcomes[0]);
      UpdateNowKeepsBadgeInSync(st, outcomes[0]);
      RunKeepsBadgeInSync(first.0, outcomes[1..]);
      LastBadgeAppend(first.1, Run(first.0, outcomes[1..]).1, st.lastCount);
    }
  }

  /** Scanning the same forms twice posts them twice; only the second badge
      update is skipped. */
  lemma RepeatedScanStillPosts(st: ScannerState, forms: seq<FormData>)
    requires Cloneable(EncodePageMsg(FormsUpdate(forms)))
    ensures var first := UpdateNow(st, Scanned(forms));
      UpdateNow(first.0, Scanned(forms)).1 == [FormsUpdate(forms)]
  {
    var first := UpdateNow(st, Scanned(forms));
    assert first.0.lastCount == |forms|;
    var second := UpdateNow(first.0, Scanned(forms));
    assert second == Post(first.0, forms);
  }

  /** A snapshot whose `values` is a function (an array payload's inherited
      `values` method) makes `postMessage` throw a DataCloneError, so the
      whole scan posts nothing and `lastCount` stays. */
  lemma {:induction false} FunctionValuesBlockPost(st: ScannerState, forms: seq<FormData>, i: nat)
    requires i < |forms| && forms[i].values.Func?
    ensures UpdateNow(st, Scanned(forms)) == (st, [])
  {
    var item := EncodeForm(forms[i]);
    assert item.props["values"] == forms[i].values;
    assert !Cloneable(item);
    var items := EncodeForms(forms);
    assert items[i] == item;
    assert !Cloneable(Arr(items));
    var data := EncodePageMsg(FormsUpdate(forms));
    assert data.props["forms"] == Arr(items);
  }

  /**
   * `updateNow()` over a page whose scan returns: the forms posted are
   * `scanForms()` of the fiber graph and its roots, one snapshot per accepted
   * bag with id `form-i`, unless structured clone rejects them.
   */
  lemma ScanThenPost(st: ScannerState, g: FiberGraph.Graph, hookRoots: seq<FiberGraph.NodeId>, fallbackRoots: seq<FiberGraph.NodeId>)
    ensures var forms := Scan.ScanForms(g, hookRoots, fallbackRoots);
      var r := UpdateNow(st, Scanned(forms));
      && (Cloneable(EncodePageMsg(FormsUpdate(forms))) ==> r == Post(st, forms) && r.1[0] == FormsUpdate(forms))
      && (!Cloneable(EncodePageMsg(FormsUpdate(forms))) ==> r == (st, []))
      && forall i :: 0 <= i < |forms| ==> forms[i].id == FormId(i)
  {
  }

  /** A name-matched array payload anywhere in the scan stops the whole
      `updateNow()` from posting: its snapshot's `values` is the array's
      inherited method, which structured clone rejects. */
  lemma {:induction false} ArrayBagBlocksScan(st: ScannerState, g: FiberGraph.Graph, hookRoots: seq<FiberGraph.NodeId>, fallbackRoots: seq<FiberGraph.NodeId>, i: nat)
    requires var bags := Scan.Bags(g, Scan.Visits(g, Scan.ChosenRoots(hookRoots, fallbackRoots)));
      i < |bags| && bags[i].Arr?
    ensures UpdateNow(st, Scanned(Scan.ScanForms(g, hookRoots, fallbackRoots))) == (st, [])
  {
    var bags := Scan.Bags(g, Scan.Visits(g, Scan.ChosenRoots(hookRoots, fallbackRoots)));
    var forms := Scan.ScanForms(g, hookRoots, fallbackRoots);
    assert forms[i] == ToFormData(bags[i], i);
    assert Get(bags[i], "values") == ArrayValuesMethod;
    FunctionValuesBlockPost(st, forms, i);
  }

  /** The armed debounce timers are at most the one `debounceId` names, and all
      ids handed out so far are below `nextTimer`. */
  predicate TimersOk(st: ScannerState) {
    && (forall t :: t in st.armed ==> st.debounceId == Some(t))
    && (forall t :: t in st.armed ==> 0 < t < st.nextTimer)
    && (st.debounceId.Some? ==> 0 < st.debounceId.value < st.nextTimer)
    && st.nextTimer > 0
  }

  /**
   * `debouncedUpdate()`: cancel the timer `debounceId` names and arm a new
   * one. From a well-formed state the old timer is gone and exactly the new
   * one is armed afterwards.
   */
  function DebouncedUpdate(st: ScannerState): (st': ScannerState)
    ensures st'.debounceId.Some? && st'.debounceId.value in st'.armed
    ensures TimersOk(st) ==> TimersOk(st') && st'.armed == {st'.debounceId.value}
    ensures TimersOk(st) ==> st'.debounceId.value !in st.armed
    ensures TimersOk(st) && st.debounceId.Some? ==> st.debounceId.value !in st'.armed
    ensures st'.lastCount == st.lastCount
  {
    var armed := if st.debounceId.Some? then st.armed - {st.debounceId.value} else st.armed;
    ScannerState(st.lastCount, Some(st.nextTimer), armed + {st.nextTimer}, st.nextTimer + 1)
  }

  /**
   * A debounce timer firing: when it is armed it is disarmed and `updateNow`
   * runs; a cancelled or unknown timer does nothing.
   */
  function FireTimer(st: ScannerState, t: TimerId, outcome: ScanOutcome): (r: (ScannerState, seq<PageMsg>))
    ensures t !in st.armed ==> r == (st, [])
    ensures t in st.armed ==> r == UpdateNow(st.(armed := st.armed - {t}), outcome)
    ensures t in st.armed ==> r.0.armed == st.armed - {t}
    ensures TimersOk(st) ==> TimersOk(r.0)
    ensures TimersOk(st) && t in st.armed ==> r.0.armed == {}
  {
    if t in st.armed then UpdateNow(st.(armed := st.armed - {t}), outcome) else (st, [])
  }

  /** How the original `onCommitFiberRoot` ended. */
  datatype HookOutcome = Returned(result: Value) | Raised(error: Value)

  /**
   * The wrapper installed over `HOOK.onCommitFiberRoot`: the original's
   * result is returned, or its exception rethrown, and in either case a
   * debounced scan is scheduled by the `finally`.
   */
  function OnCommitFiberRoot(st: ScannerState, orig: HookOutcome): (r: (HookOutcome, ScannerState))
    ensures r.0 == orig
    ensures r.1.debounceId.Some? && r.1.debounceId.value in r.1.armed
    ensures TimersOk(st) ==> TimersOk(r.1) && r.1.armed == {r.1.debounceId.value}
    ensures r.1.lastCount == st.lastCount
  {
    (orig, DebouncedUpdate(st))
  }

  /** A burst of commits, one after another. */
  function Commits(st: ScannerState, origs: seq<HookOutcome>): ScannerState
    decreases |origs|
  {
    if origs == [] then st else Commits(OnCommitFiberRoot(st, origs[0]).1, origs[1..])
  }

  /** However many commits arrive in a row, afterwards exactly one scan is pending. */
  lemma {:induction false} CommitBurstArmsOneTimer(st: ScannerState, origs: seq<HookOutcome>)
    requires TimersOk(st) && |origs| > 0
    ensures TimersOk(Commits(st, origs)) && |Commits(st, origs).armed| == 1
    decreases |origs|
  {
    var next := OnCommitFiberRoot(st, origs[0]).1;
    if |origs| > 1 {
      CommitBurstArmsOneTimer(next, origs[1..]);
    } else {
      assert Commits(st, origs) == Commits(next, []) == next;
    }
  }

  /** The page's `message` listener: a refresh request tagged with the
      extension's source runs `updateNow`; every other message is ignored. */
  function OnWindowMessage(st: ScannerState, data: Value, outcome: ScanOutcome): (r: (ScannerState, seq<PageMsg>))
    ensures Get(data, "source") != Str(Source) ==> r == (st, [])
    ensures Get(data, "type") != Str("refresh-request") ==> r == (st, [])
    ensures Get(data, "source") == Str(Source) && Get(data, "type") == Str("refresh-request") ==> r == UpdateNow(st, outcome)
  {
    if Get(data, "source") == Str(Source) && Get(data, "type") == Str("refresh-request") then UpdateNow(st, outcome)
    else (st, [])
  }

  /** The scanner ignores its own posts when they come back to its listener. */
  lemma IgnoresOwnPosts(st: ScannerState, m: PageMsg, outcome: ScanOutcome)
    ensures OnWindowMessage(st, EncodePageMsg(m), outcome) == (st, [])
  {
  }

  /** The script's starting state, `lastCount = 0` with no timer armed, is
      well formed, so the debounce contracts apply from the first commit. */
  lemma InitialTimersOk()
    ensures TimersOk(Initial)
    ensures Initial.lastCount == 0 && Initial.armed == {}
  {
  }
}

=== FILE: wrappers.dfy ===
/** The optional-value datatype shared by every module of the model. */
module Wrappers {

  /** `None` stands for JavaScript's `undefined`/`null` where a value may be absent. */
  datatype Option<+T> = None | Some(value: T)
}
